=== FILE: README.md ===
# gitignore-doctor, modelled in Dafny

gitignore-doctor is a single-file tool that writes a `.gitignore`. It works out which technology stacks a project uses, generates ignore rules for them from a fixed template table, and splices those rules into the existing ignore file between two marker lines. It can also report tracked files that look like secrets or binaries. This project models the pure core of `doctor.py` and proves properties of it:

- **Templates** (`templates.dfy`): the `TEMPLATES` table, with one `Stack` constructor per key and the exact titles and rules.
- **Generate** (`generate.dfy`): `generate_gitignore`.
  - It walks the requested names in order and skips unknown names.
  - It emits an optional `### title` header per stack, then each rule only the first time it is seen (one `used` set shared across stacks), then an optional blank line.
  - It joins the lines with newlines, right-trims, and adds one newline.
- **Merge** (`merge.dfy`): `merge_with_existing` with the markers `DOCTOR_BEGIN` and `DOCTOR_END`.
  - The splice is written once for any pair of markers whose first character does not recur in them, so that neither can overlap itself (`Splice`). `MergeWithExisting` fixes the tool's own pair.
- **Risks** (`risks.dfy`): `scan_risks` over `RISKY_HINTS`, both as a loop (`ScanRisks`) and as a function (`Scan`).
- **Detect** (`detect.dfy`): `detect_platforms`. Each detector's verdict is an input flag; the editor and OS detectors always fire.
- **Cli** (`cli.dfy`): the decisions in `main`.
  - `--only` overrides detection, and an empty list falls back to `["editors", "os"]`.
  - `--strict` with findings exits with status 2 and writes nothing.
  - With `--write`, the ignore file gets the merge of the generated block into its current text.
- **Text** (`text.dfy`): the Python string operations this needs, over `string`.
  - Covered: `str.isspace` (the full Unicode whitespace set), `rstrip`, `lstrip` and `strip`, `lower`, `endswith`, `in`, `split(m)[0]`, `split(m)[-1]`, `"\n".join` and `os.path.basename`. `Find` is the left-to-right substring search behind `in` and `split(m)`.
  - `SplitLines` reads a text back as its lines (`split("\n")`); it is the inverse of `"\n".join` and is used to state what the generated text holds line by line.
  - `split(m)[-1]` is modelled as Python computes it: a greedy non-overlapping scan from the left. It is proved equal to "the text after the last occurrence" whenever the first character of `m` does not recur in `m`, so that occurrences cannot overlap. Both markers have that shape: their first character `#` never recurs.

Where the code and its documented promises differ, the model follows the code:

- Merging is not idempotent for every existing text. It is idempotent exactly when the text does not hold a BEGIN marker without an END marker (`Merge.MergeIdempotentIff`). In the exceptional case the first merge appends a fresh block after the stray BEGIN. The second merge then cuts at the stray BEGIN, so the result changes (`Merge.StrayBeginBreaksIdempotence`).
- Text outside the markers is not always kept byte-for-byte:
  - Without both markers, the existing text is right-trimmed before the block is appended (`Merge.MergeAppends`).
  - When END comes before BEGIN, the text between them is kept twice (`Merge.EndBeforeBeginDuplicates`).
  - Markers are matched as substrings anywhere, not as whole lines.
- The base-name test in the secret check never changes a verdict. A path whose base name is a listed name also ends with that name, so the suffix test alone decides (`Risks.BasenameTestRedundant`).
- The final reordering in `detect_platforms` never changes anything. The detectors already append in the canonical order (`Detect.ReorderIsNoOp`).

## Model

| member | source | states |
|---|---|---|
| Text.Strip | doctor.py:251 | `strip()` is empty exactly when the text is blank, so `not s.strip()` is `IsBlank`; otherwise it starts and ends in a non-whitespace character |
| Text.LStrip | doctor.py:251 | `lstrip()` gives a suffix of the text that does not start with whitespace, and everything it drops is whitespace |
| Text.RStrip | doctor.py:237 | `rstrip()` gives a prefix of the text that does not end in whitespace, everything it drops is whitespace, and it is empty exactly when the text is blank |
| Text.Lower | doctor.py:258 | lower-casing keeps the length and lowers every character in place |
| Text.EndsWithLower | doctor.py:259 | if a path ends with a name, the lower-cased path ends with the lower-cased name |
| Text.Find | doctor.py:246 | the search returns the least index at or after the start where the marker occurs, and no occurrence when there is none |
| Text.SplitHead | doctor.py:247 | `split(m)[0]` is a prefix holding no `m`, no occurrence of `m` in the text starts inside it, and `m` follows it exactly when the text contains `m`, so it is the text before the first `m` or the whole text |
| Text.SplitTail | doctor.py:248 | `split(m)[-1]` is a suffix of the text holding no `m`, and the whole text when the text holds no `m` |
| Text.SplitTailAfterLast | doctor.py:248 | for a marker whose first character does not recur in it (so occurrences cannot overlap), `split(m)[-1]` is exactly the text after the last occurrence |
| Text.FirstOccurrence | doctor.py:247 | in `a + m + rest` with no `m` in `a`, the first `m` is right after `a`, so `split(m)[0]` gives `a` back |
| Text.LastOccurrence | doctor.py:248 | in `pre + m + b` with no `m` in `b`, `split(m)[-1]` gives `b` back |
| Text.JoinLines | doctor.py:237 | the newline-joined text is blank exactly when every line is blank |
| Text.SplitLines | doctor.py:237 | reading a text back at its newlines yields at least one piece, none holding a newline |
| Text.SplitJoin | doctor.py:237 | splitting the newline-joined lines at newlines gives the lines back, whenever no line holds a newline |
| Text.JoinSplit | doctor.py:237 | joining the pieces of a split with newlines gives the text back |
| Text.JoinNewline | doctor.py:237 | adding the final newline to a joined text is joining one more, empty, line |
| Text.RStripEmptyLast | doctor.py:237 | `rstrip` removes a trailing empty line together with its newline |
| Text.RStripVisibleLast | doctor.py:237 | `rstrip` leaves a joined text alone when its last line ends in a non-whitespace character |
| Text.IsSpace | doctor.py:237 | the characters `str.isspace` accepts, which `rstrip()` and `strip()` remove |
| Text.EndsWith | doctor.py:259-261 | `s.endswith(suffix)`: the last characters of `s` are `suffix` |
| Text.Contains | doctor.py:246 | `m in s`: the search finds `m` somewhere |
| Text.LowerKeeps | doctor.py:261 | lower-casing a text without upper-case letters changes nothing |
| Text.Basename | doctor.py:257 | the base name is the longest suffix of the path without a `/` |
| Templates.Parse | doctor.py:226 | a stack found for a name has exactly that name as its key |
| Templates.ParseName | doctor.py:99-205 | every key of the table is found again under its own name, so key and stack determine each other |
| Templates.Lookup | doctor.py:226 | `TEMPLATES.get(name)` finds a template exactly when the name is a key, and it is that key's template |
| Templates.TemplateOf | doctor.py:99-205 | the table's title and rule list for each key, in the table's order |
| Templates.TemplatesLeadWithVisibleRule | doctor.py:99-205 | every template has a first rule that starts with a visible character, so it never renders as a blank line |
| Templates.TemplatesWellFormed | doctor.py:99-205 | every title and every rule is one non-empty line not ending in whitespace, and no rule starts with `#`, so no rule reads as a header or a blank line |
| Templates.SharedRules | doctor.py:99-205 | `target/`, `bin/`, `build/` and `.idea/` each appear in two templates |
| Generate.KnownOnly | doctor.py:226-228 | the names kept are exactly the requested names the table knows, in the order given, each repeat kept as often as it was requested |
| Generate.Render | doctor.py:229-235 | a header line is a `#` comment ending in its title, a rule line is the rule itself, and the blank line is empty |
| Generate.AsRules | doctor.py:232-233 | the emitted rules become rule lines, one per rule and in the same order |
| Generate.Section | doctor.py:229-236 | one known stack's lines: with `explain`, its header first and a blank line last around its emitted rules; without it, exactly one rule line per emitted rule |
| Generate.EmitRules | doctor.py:231-234 | one template's loop emits exactly its rules that are not yet used, each once and in template order, and `used` grows by all of its rules |
| Generate.GenLines | doctor.py:224-236 | the loop over the stacks: the line list and the `used` set after all of them |
| Generate.Lines | doctor.py:222-236 | the line list built before joining, starting from an empty `used` set |
| Generate.Generate | doctor.py:237 | the block ends in exactly one newline with no whitespace before it |
| Generate.GenLinesInvariant | doctor.py:224-236 | the outer loop keeps the invariant: `used` grows by the rules of the known stacks, the emitted rules are exactly those not used before, and none repeats |
| Generate.GenLinesHeaders | doctor.py:225-236 | the header lines are the titles of the known stacks in input order, and there are none without `explain` |
| Generate.GenLinesSkipsUnknown | doctor.py:226-228 | unknown names contribute nothing: the output equals that for the known names alone |
| Generate.KnownRulesMembers | doctor.py:225-234 | a rule is among the known stacks' rules exactly when some known requested stack lists it |
| Generate.NoDuplicateRules | doctor.py:224-234 | no rule line is emitted twice, even when stacks share a rule |
| Generate.EmitsExactlyKnownRules | doctor.py:225-234 | a rule is emitted exactly when some known requested stack lists it |
| Generate.HeadersInOrder | doctor.py:225-236 | with `explain` the headers are the known stacks' titles in the order given; without it there are none |
| Generate.JavaEditorsIdeaOnce | doctor.py:231-234 | for `java` then `editors`, the shared rule `.idea/` is emitted exactly once |
| Generate.NoKnownNoLines | doctor.py:226-228 | a request naming no known stack produces no lines |
| Generate.GenerateEmptyIffNoKnownStack | doctor.py:225-237 | the block is exactly `"\n"` precisely when no requested name is a known stack |
| Generate.EmitRulesAppend | doctor.py:231-234 | the inner loop over `a + b` is the loop over `a`, then over `b` with `used` grown by `a`'s rules |
| Generate.EmitRulesFirst | doctor.py:231-234 | the inner loop keeps exactly the first occurrences of the rules not used before, in order, matching an independent first-occurrence filter |
| Generate.GenLinesRules | doctor.py:224-236 | the rule lines of the whole run equal one inner loop over all known templates' rules in sequence |
| Generate.RuleOrder | doctor.py:224-236 | the rule lines are the first occurrences of the known stacks' rules, in stack order and then template order, so a shared rule appears where it first occurs |
| Generate.DropBlankTail | doctor.py:237 | dropping trailing blank lines leaves a prefix that does not end in a blank line, and only blank lines are dropped |
| Generate.RenderGood | doctor.py:229-235 | a well-formed line renders as one line, reads as a rule exactly when it is a rule, and a non-blank line does not end in whitespace |
| Generate.GenLinesGood | doctor.py:224-236 | every header and rule line the generator builds is well formed |
| Generate.RuleLinesRender | doctor.py:229-235 | among the rendered lines, the ones that read as rules are exactly the rule lines, in order |
| Generate.DropBlankTailRules | doctor.py:237 | dropping trailing blank lines loses no rule line |
| Generate.StripBlankTail | doctor.py:237 | `rstrip` on the joined lines removes exactly the trailing blank lines and nothing of the last remaining line |
| Generate.GenerateIsJoin | doctor.py:237 | the returned text is the lines without trailing blanks, joined, plus the final newline |
| Generate.GenerateLines | doctor.py:222-238 | read back at its newlines, the returned text is the rendered lines without trailing blanks (one empty line if none remain), then the empty piece after the final newline |
| Generate.GenerateRuleLines | doctor.py:222-238 | in the returned text, the lines that read as rules are the known stacks' rules in first-occurrence order, no rule line occurs twice, and a rule-shaped line is present exactly when some known requested stack lists it |
| Merge.MarkersArePair | doctor.py:219-220 | neither marker's first character recurs in it, so neither can overlap itself; neither holds a newline, BEGIN ends in a non-whitespace character, and BEGIN does not contain END |
| Merge.Splice | doctor.py:240-252 | the merged text always contains both markers |
| Merge.MergeWithExisting | doctor.py:240-252 | the tool's merge always leaves both markers in the file |
| Merge.AppendBase | doctor.py:251 | the text kept in front of an appended block: nothing when `strip()` leaves nothing, otherwise the right-trimmed text and a blank line |
| Merge.SpliceKeepsOutside | doctor.py:246-249 | with both markers present, the text before the first opener and after the last closer is kept around the new block |
| Merge.SpliceSplit | doctor.py:246-249 | given the first opener and the last closer, the splice replaces exactly what lies between them |
| Merge.SpliceReplacesBlock | doctor.py:246-249 | `a + opener + inner + closer + b`, with no opener in `a` and no closer in `b`, becomes `a + opener + "\n" + block + closer + b` |
| Merge.SpliceMarked | doctor.py:246-249 | with both markers present, merging the same block twice equals merging once |
| Merge.BaseHasNoOpener | doctor.py:251 | right-trimming and adding a blank line creates no opener |
| Merge.SpliceUnmarked | doctor.py:250-252 | without an opener, merging the same block twice equals merging once |
| Merge.KeptOpener | doctor.py:251 | right-trimming keeps the first opener whole, because the marker ends in a non-whitespace character |
| Merge.SpliceStrayOpener | doctor.py:246-252 | with an opener but no closer, merging twice differs from merging once |
| Merge.SpliceEndBeforeBegin | doctor.py:246-249 | when the closer precedes the opener, the text between them ends up on both sides of the new block |
| Merge.MergeKeepsOutside | doctor.py:246-249 | with both markers present, the result is the prefix before the first BEGIN, then BEGIN, a newline, the block, END, and the suffix after the last END |
| Merge.MergeReplacesBlock | doctor.py:246-249 | a managed block with user text `a` before and `b` after keeps `a` and `b` and replaces only the inside |
| Merge.MergeReplacesOld | doctor.py:246-249 | `"A" + BEGIN + "\nold\n" + END + "B"` becomes `"A" + BEGIN + "\n" + X + END + "B"` |
| Merge.MergeAppends | doctor.py:250-252 | with a marker missing, the result is the right-trimmed text plus a blank line (nothing if the text is blank), then BEGIN, a newline, the block, END and a newline |
| Merge.MergeIdempotent | doctor.py:246-252 | merging twice equals merging once whenever a BEGIN in the text comes with an END |
| Merge.StrayBeginBreaksIdempotence | doctor.py:246-252 | whenever the text holds BEGIN but no END, merging twice differs from merging once |
| Merge.MergeIdempotentIff | doctor.py:246-252 | merging is idempotent on a text exactly when the text does not hold BEGIN without END |
| Merge.EndBeforeBeginDuplicates | doctor.py:246-249 | for `END + "u" + BEGIN` the result holds `END + "u" + BEGIN` both before and after the new block |
| Risks.FindingsOf | doctor.py:259-262 | one path yields at most two findings |
| Risks.FindingsOfShape | doctor.py:259-262 | a path yields at most two findings, both about that path, one per test that holds, the secret finding first |
| Risks.ScanBy | doctor.py:254-263 | the scan yields at most two findings per path |
| Risks.Scan | doctor.py:254-263 | `scan_risks` with a given hint table yields at most two findings per tracked path |
| Risks.SecretMatch | doctor.py:257-259 | one secret name matches when the base name equals it or the lower-cased path ends with its lower-cased form |
| Risks.IsSecret | doctor.py:259 | a path is a secret when some listed name matches it |
| Risks.IsBinary | doctor.py:261 | a path is a binary when its lower-cased form ends with some listed extension as written |
| Risks.BinaryExtsLowerCase | doctor.py:212-215 | every binary extension in the tool's hints is written without upper-case letters |
| Risks.BinaryIgnoresCase | doctor.py:207-216 | with the tool's hints, the binary test is a case-insensitive suffix test, like the secret test |
| Risks.ScanByMembers | doctor.py:254-263 | every finding names a scanned path, and a path gets a finding of a kind exactly when it is scanned and that test holds |
| Risks.ScanMembers | doctor.py:254-263 | with the tool's hint lists, a path is reported as a secret (or a binary) exactly when it is tracked and passes the secret (or binary) test, and nothing else is reported |
| Risks.ScanLoop | doctor.py:255-263 | the loop that appends each path's secret finding, then its binary finding, computes the scan for any pair of tests |
| Risks.ScanRisks | doctor.py:254-263 | the loop computes the scan, and its secret and binary findings are exactly the tracked paths passing each test |
| Risks.ScanByAppend | doctor.py:256-262 | scanning a concatenation is scanning the parts in turn, so input order is kept |
| Risks.ScanAppend | doctor.py:256-262 | the same order-keeping law for the tool's hint lists |
| Risks.ScanCons | doctor.py:256-262 | the first path's findings come first, followed by the rest's |
| Risks.BasenameTestRedundant | doctor.py:257-259 | the per-name secret test holds exactly when the lower-cased path ends with the lower-cased name |
| Risks.SecretIffSuffix | doctor.py:259 | a path is a secret exactly when its lower-cased form ends with some lower-cased listed name |
| Risks.BasenameOfJoin | doctor.py:257 | the base name of `dir + "/" + name` is `name` |
| Risks.BasenameNoSlash | doctor.py:257 | the base name of a path without slashes is the path itself |
| Risks.BasenameLast | doctor.py:257 | a path not ending in `/` has a non-empty base name ending in the path's last character |
| Risks.NotSecretByLastChar | doctor.py:259 | a path is not a secret when no listed name ends, ignoring case, in its last character |
| Risks.NotBinaryByLastChar | doctor.py:261 | a path is not a binary when no listed extension ends in its lower-cased last character |
| Risks.EnvFileIsSecret | doctor.py:259 | every `dir/.env` is a secret |
| Risks.EnvFileIsNoBinary | doctor.py:261 | no `dir/.env` is a binary |
| Risks.EnvFileVerdict | doctor.py:259-262 | every `dir/.env` is flagged as a secret only |
| Risks.ExeFileVerdict | doctor.py:259-262 | every path ending in `.exe`, in any mix of cases, is flagged as a binary only |
| Risks.DotEnvIsSecret | doctor.py:254-263 | `secrets/.env` yields exactly one finding, a secret |
| Risks.AppExeIsBinary | doctor.py:254-263 | `release/app.exe` yields exactly one finding, a binary |
| Risks.EnvFileScan | doctor.py:254-263 | every `dir/.env` alone yields exactly one finding, a secret |
| Risks.ExeFileScan | doctor.py:254-263 | every path ending in `.exe`, in any mix of cases, alone yields exactly one finding, a binary |
| Risks.IdRsaIsSecret | doctor.py:207-211 | a tracked `id_rsa` is reported as a secret |
| Detect.Detected | doctor.py:52-80 | the editor and OS detectors always fire; when no probe fires, no other detector does |
| Detect.Fired | doctor.py:83-93 | at most one name per detector asked, and every detector's name, in order, when all of them fire |
| Detect.KeepListed | doctor.py:96 | the filter's result is no longer than the order and holds only names that are both in the order and in the list |
| Detect.DetectPlatforms | doctor.py:82-96 | the detected list is a subsequence of the canonical order |
| Detect.KeepListedMembers | doctor.py:96 | the filter keeps exactly the canonical names present in the list |
| Detect.KeepListedSubseq | doctor.py:96 | the filter's result is a subsequence of the canonical order |
| Detect.KeepListedMonotone | doctor.py:96 | filtering a smaller list gives a subsequence of filtering a larger one |
| Detect.KeepListedOfSubseq | doctor.py:96 | filtering a duplicate-free order by one of its subsequences returns that subsequence |
| Detect.OrderNames | doctor.py:84-95 | the canonical order names the detectors in the order they are asked |
| Detect.OrderIsDetectorOrder | doctor.py:84-95 | the canonical order is the detectors' order and holds no name twice |
| Detect.FiredSubseq | doctor.py:83-93 | the appended names form a subsequence of the detectors' names |
| Detect.FiredMembers | doctor.py:83-93 | a stack's name is appended exactly when it is asked and its detector fires |
| Detect.ReorderIsNoOp | doctor.py:82-96 | the final reordering returns the appended list unchanged |
| Detect.EveryStackAsked | doctor.py:84-93 | every stack of the table has a detector |
| Detect.DetectOrdered | doctor.py:82-96 | the result is a duplicate-free subsequence of the canonical order |
| Detect.DetectMembers | doctor.py:82-96 | a stack is in the result exactly when its detector fires |
| Detect.DetectAlwaysEditorsOs | doctor.py:76-80 | `editors` and `os` are always detected, so the result has at least two entries |
| Detect.DetectMonotone | doctor.py:82-96 | more probes firing only adds stacks, in the same order |
| Cli.SelectStacks | doctor.py:277-279 | the selected stack list is never empty |
| Cli.Run | doctor.py:277-301 | the exit status is 2 exactly when `--strict` is set and the scan finds something, and 0 otherwise; the file is written exactly when `--write` is set and the run did not fail; the written text holds both markers; with `--risks` or `--strict` the reported findings are the scan of the tracked paths, and otherwise nothing is reported |
| Cli.OnlyOverrides | doctor.py:277 | a non-empty `--only` list is used as given |
| Cli.FallbackNeverFires | doctor.py:277-279 | without `--only` the selection is the detected list, and the fallback is never used |
| Cli.NothingDetected | doctor.py:277-279 | with no optional probe firing, the selection is `["editors", "os"]`, found by detection and not by the fallback |
| Cli.GoDetected | doctor.py:277-279 | with only the Go probe firing, the selection is `["go", "editors", "os"]` |
| Cli.RunReplacesBlock | doctor.py:298-301 | a writing run over a file holding `a + BEGIN + inner + END + b`, with no BEGIN in `a` and no END in `b`, writes `a + BEGIN + "\n" + block + END + b` for the freshly generated block |
| Cli.RunCreatesFile | doctor.py:298-301 | a writing run with no ignore file writes BEGIN, a newline, the generated block, END and a newline |
| Cli.RerunIsStable | doctor.py:298-301 | running the same command over the file it wrote writes the same text, unless the original held a stray BEGIN |
| Cli.StrictRejectsPrivateKey | doctor.py:284-292 | every strict run whose tracked paths include `id_rsa` exits with 2 and writes nothing, whatever the other flags |
| Cli.LenientNeverFails | doctor.py:284-292 | without `--strict` the exit status is 0 whatever is tracked |

## Left out

- The filesystem probes `has_any`, `file_exists_any` and `dir_exists_any` (doctor.py:29-49), and the detector bodies built on them (doctor.py:52-74), walk and stat the disk. Their verdicts are the flags of `Detect.Probes`. This leaves out the per-file match and the directory-skip rule, which is a substring test on the whole path.
- `is_git_repo` and `git_tracked_files` (doctor.py:13-27) run a subprocess and swallow its errors. The tracked list is an input of `Cli.Run` and `Risks.Scan`.
- Argument parsing, the formatting and printing of every message (the findings listing's lines, the dry-run preview and the status lines), and reading and writing `.gitignore` (doctor.py:266-309). Which findings the listing shows is modelled: it is `Cli.Outcome.reported`. The file's current text is an `Option<string>` input and the written text is part of `Cli.Outcome`.
- Newline translation: `Path.read_text` and `Path.write_text` open the file in text mode (doctor.py:299-301), so `\r\n` and `\r` read as `\n`, and every `\n` written becomes the platform's line separator. The model's input is the text after that translation and its output the text before it; the bytes on disk are not modelled.
- Text decoding: files and subprocess output are UTF-8 bytes in the tool and character sequences here.
- Cli.Run: assumes that reading `.gitignore` (doctor.py:299, decoded as UTF-8) and writing it (doctor.py:301) succeed. In the tool, text that is not valid UTF-8 or a failed write raises an exception. The run then ends with a traceback and exit status 1, after any findings listing. That status is not an outcome of the model, which promises only 0 or 2.
- Text.Lower: lowers only the ASCII letters `A`–`Z`. Python's `str.lower()` also lowers other Unicode letters, and some of them change length.
- Text.Basename: models POSIX `os.path.basename`, which splits only at `/`. The Windows variant also splits at `\` and drive letters.

=== FILE: cli.dfy ===
/**
 The decisions the command line makes once its flags are parsed: which
 stacks to generate for, whether the run fails on risky tracked files, and
 what text ends up in the ignore file.
 */
module Cli {
  import opened Text
  import opened Generate
  import opened Merge
  import opened Risks
  import opened Detect

  /** The parsed flags. */
  datatype Args = Args(write: bool, risks: bool, only: seq<string>, noExplain: bool, strict: bool)

  /** What a run leaves behind: its exit status, the findings it reported,
      and the text written to the ignore file, if any. */
  datatype Outcome = Outcome(exitCode: int, reported: seq<Finding>, written: Option<string>)

  /** `--only` wins over detection; an empty list falls back to editors and
      OS cruft. */
  function SelectStacks(only: seq<string>, p: Probes): (r: seq<string>)
    ensures |r| > 0
  {
    var stacks := if |only| > 0 then only else DetectPlatforms(p);
    if |stacks| == 0 then ["editors", "os"] else stacks
  }

  /** One run of `main`, given the parsed flags, the probes' verdicts, the
      tracked paths and the ignore file's current text (`None` when the file
      is absent, which reads as the empty text). That text is the file's
      contents as Python's text mode decodes them, after universal-newline
      translation; the bytes on disk are not modelled. */
  function Run(args: Args, p: Probes, tracked: seq<string>, existing: Option<string>): (o: Outcome)
    ensures o.exitCode == 0 || o.exitCode == 2
    ensures o.exitCode == 2 <==> args.strict && |Scan(RISKY_HINTS, tracked)| > 0
    ensures o.written.Some? <==> args.write && o.exitCode == 0
    ensures o.written.Some? ==> Contains(o.written.value, BEGIN) && Contains(o.written.value, END)
    ensures !args.risks && !args.strict ==> o.reported == []
    ensures args.risks || args.strict ==> o.reported == Scan(RISKY_HINTS, tracked)
  {
    var content := Generate.Generate(SelectStacks(args.only, p), !args.noExplain);
    var reported := if args.risks || args.strict then Scan(RISKY_HINTS, tracked) else [];
    if args.strict && |reported| > 0 then Outcome(2, reported, None)
    else if args.write then Outcome(0, reported, Some(MergeWithExisting(content, if existing.Some? then existing.value else "")))
    else Outcome(0, reported, None)
  }

  /** `--only` overrides detection whenever it names at least one stack. */
  lemma OnlyOverrides(only: seq<string>, p: Probes)
    requires |only| > 0
    ensures SelectStacks(only, p) == only
  {
  }

  /** Detection always finds editors and OS cruft, so without `--only` the
      fallback list is never used. */
  lemma FallbackNeverFires(p: Probes)
    ensures SelectStacks([], p) == DetectPlatforms(p)
  {
    DetectAlwaysEditorsOs(p);
  }

  lemma NothingDetected()
    ensures SelectStacks([], Probes(false, false, false, false, false, false, false, false)) == ["editors", "os"]
  {
    var p := Probes(false, false, false, false, false, false, false, false);
    FallbackNeverFires(p);
    ReorderIsNoOp(p);
  }

  lemma GoDetected()
    ensures SelectStacks([], Probes(false, false, true, false, false, false, false, false)) == ["go", "editors", "os"]
  {
    var p := Probes(false, false, true, false, false, false, false, false);
    FallbackNeverFires(p);
    ReorderIsNoOp(p);
  }

  /** A writing run over an ignore file that already holds a doctor block
      replaces what lies between the markers with the freshly generated block
      and keeps the text before and after the markers byte for byte. */
  lemma RunReplacesBlock(args: Args, p: Probes, tracked: seq<string>, a: string, inner: string, b: string)
    requires args.write && !(args.strict && |Scan(RISKY_HINTS, tracked)| > 0)
    requires !Contains(a, BEGIN) && !Contains(b, END)
    ensures Run(args, p, tracked, Some(a + BEGIN + inner + END + b)).written
      == Some(a + BEGIN + "\n" + Generate.Generate(SelectStacks(args.only, p), !args.noExplain) + END + b)
  {
    var content := Generate.Generate(SelectStacks(args.only, p), !args.noExplain);
    MergeReplacesBlock(content, a, inner, b);
  }

  /** A writing run with no ignore file creates one that holds only the
      marked block. */
  lemma RunCreatesFile(args: Args, p: Probes, tracked: seq<string>)
    requires args.write && !(args.strict && |Scan(RISKY_HINTS, tracked)| > 0)
    ensures Run(args, p, tracked, None).written
      == Some(BEGIN + "\n" + Generate.Generate(SelectStacks(args.only, p), !args.noExplain) + END + "\n")
  {
    var content := Generate.Generate(SelectStacks(args.only, p), !args.noExplain);
    MergeAppends(content, "");
    assert "" + BEGIN == BEGIN;
  }

  /** Running the same command again over what it wrote writes the same text,
      unless the original text held a stray BEGIN marker. */
  lemma RerunIsStable(args: Args, p: Probes, tracked: seq<string>, existing: Option<string>)
    requires Run(args, p, tracked, existing).written.Some?
    requires existing.Some? && Contains(existing.value, BEGIN) ==> Contains(existing.value, END)
    ensures Run(args, p, tracked, Run(args, p, tracked, existing).written).written
      == Run(args, p, tracked, existing).written
  {
    var content := Generate.Generate(SelectStacks(args.only, p), !args.noExplain);
    MergeIdempotent(content, if existing.Some? then existing.value else "");
  }

  /** A tracked private key fails every strict run, whatever else is tracked
      and whatever the other flags say, and nothing is written. */
  lemma StrictRejectsPrivateKey(args: Args, p: Probes, tracked: seq<string>, existing: Option<string>)
    requires args.strict && "id_rsa" in tracked
    ensures Run(args, p, tracked, existing).exitCode == 2
    ensures Run(args, p, tracked, existing).written == None
  {
    IdRsaMatches();
    ScanMembers(RISKY_HINTS, tracked);
    assert Finding(Secret, "id_rsa") in Scan(RISKY_HINTS, tracked);
  }

  /** Without `--strict` a run never fails, whatever is tracked. */
  lemma LenientNeverFails(args: Args, p: Probes, tracked: seq<string>, existing: Option<string>)
    requires !args.strict
    ensures Run(args, p, tracked, existing).exitCode == 0
  {
  }
}

=== FILE: detect.dfy ===
/**
 Stack detection with the filesystem probes abstracted away: each optional
 detector's verdict is an input flag, the editor and OS detectors always
 fire, and the result lists the fired stacks in the fixed canonical order.
 */
module Detect {
  import opened Text
  import opened Templates

  /** What the filesystem probes reported, one flag per optional detector. */
  datatype Probes = Probes(
    node: bool, python: bool, go: bool, rust: bool,
    java: bool, csharp: bool, swift: bool, docker: bool)

  /** `detect_<stack>()`: the probe's flag, and always true for editors and
      OS cruft. */
  predicate Detected(p: Probes, s: Stack)
    ensures s == Editors || s == Os ==> Detected(p, s)
    ensures p == Probes(false, false, false, false, false, false, false, false) ==>
              (Detected(p, s) <==> s == Editors || s == Os)
  {
    match s
    case Node => p.node
    case Python => p.python
    case Go => p.go
    case Rust => p.rust
    case Java => p.java
    case CSharp => p.csharp
    case Swift => p.swift
    case Docker => p.docker
    case Editors => true
    case Os => true
  }

  /** The detectors, in the order they are asked. */
  const DETECTORS: seq<Stack> := [Node, Python, Go, Rust, Java, CSharp, Swift, Docker, Editors, Os]

  /** The canonical order the result is sorted into. */
  const ORDER: seq<string> := ["node", "python", "go", "rust", "java", "csharp", "swift", "docker", "editors", "os"]

  function NamesOf(ss: seq<Stack>): (r: seq<string>)
    ensures |r| == |ss|
    ensures forall i :: 0 <= i < |ss| ==> r[i] == Name(ss[i])
  {
    if |ss| == 0 then [] else [Name(ss[0])] + NamesOf(ss[1..])
  }

  /** The list of names the detectors append, one per detector that fires,
      in the order the detectors are asked. */
  function Fired(p: Probes, ds: seq<Stack>): (r: seq<string>)
    ensures |r| <= |ds|
    ensures (forall i :: 0 <= i < |ds| ==> Detected(p, ds[i])) ==> r == NamesOf(ds)
  {
    if |ds| == 0 then []
    else (if Detected(p, ds[0]) then [Name(ds[0])] else []) + Fired(p, ds[1..])
  }

  /** `[s for s in order if s in stacks]`. */
  function KeepListed(order: seq<string>, stacks: seq<string>): (r: seq<string>)
    ensures |r| <= |order|
    ensures forall i :: 0 <= i < |r| ==> r[i] in order && r[i] in stacks
  {
    if |order| == 0 then []
    else (if order[0] in stacks then [order[0]] else []) + KeepListed(order[1..], stacks)
  }

  /** `detect_platforms()`. */
  function DetectPlatforms(p: Probes): (r: seq<string>)
    ensures Subseq(r, ORDER)
  {
    KeepListedSubseq(ORDER, Fired(p, DETECTORS));
    KeepListed(ORDER, Fired(p, DETECTORS))
  }

  // ---------- generic facts ----------

  lemma {:induction false} SubseqMembers(a: seq<string>, b: seq<string>)
    ensures Subseq(a, b) ==> forall x :: x in a ==> x in b
    decreases |b|
  {
    if |a| > 0 && |b| > 0 {
      SubseqMembers(a[1..], b[1..]);
      SubseqMembers(a, b[1..]);
      assert forall x :: x in a ==> x == a[0] || x in a[1..];
    }
  }

  lemma DistinctCons(x: string, t: seq<string>)
    ensures Distinct([x] + t) <==> x !in t && Distinct(t)
  {
    var s := [x] + t;
    assert s[1..] == t;
    if x !in t && Distinct(t) {
      forall i, j | 0 <= i < j < |s|
        ensures s[i] != s[j]
      {
        assert s[j] == t[j - 1];
      }
    }
    if Distinct(s) {
      forall k | 0 <= k < |t|
        ensures t[k] != x
      {
        assert s[0] == x && s[k + 1] == t[k];
      }
    }
  }

  /** A subsequence of a duplicate-free list is duplicate-free. */
  lemma {:induction false} SubseqDistinct(a: seq<string>, b: seq<string>)
    requires Subseq(a, b) && Distinct(b)
    ensures Distinct(a)
    decreases |b|
  {
    if |a| > 0 {
      DistinctCons(b[0], b[1..]);
      assert [b[0]] + b[1..] == b;
      if a[0] == b[0] && Subseq(a[1..], b[1..]) {
        SubseqDistinct(a[1..], b[1..]);
        SubseqMembers(a[1..], b[1..]);
        DistinctCons(a[0], a[1..]);
        assert [a[0]] + a[1..] == a;
      } else {
        SubseqDistinct(a, b[1..]);
      }
    }
  }

  lemma {:induction false} KeepListedMembers(order: seq<string>, stacks: seq<string>, x: string)
    ensures x in KeepListed(order, stacks) <==> x in order && x in stacks
  {
    if |order| > 0 {
      KeepListedMembers(order[1..], stacks, x);
      assert order == [order[0]] + order[1..];
    }
  }

  lemma {:induction false} KeepListedSubseq(order: seq<string>, stacks: seq<string>)
    ensures Subseq(KeepListed(order, stacks), order)
  {
    if |order| > 0 {
      KeepListedSubseq(order[1..], stacks);
      var k := KeepListed(order, stacks);
      if order[0] in stacks {
        assert k[0] == order[0] && k[1..] == KeepListed(order[1..], stacks);
      } else {
        assert k == KeepListed(order[1..], stacks);
      }
    }
  }

  /** Filtering by a smaller list keeps fewer elements, in the same order. */
  lemma {:induction false} KeepListedMonotone(order: seq<string>, small: seq<string>, big: seq<string>)
    requires forall x :: x in small ==> x in big
    ensures Subseq(KeepListed(order, small), KeepListed(order, big))
  {
    if |order| > 0 {
      KeepListedMonotone(order[1..], small, big);
      var ks := KeepListed(order, small);
      var kb := KeepListed(order, big);
      if order[0] in small {
        assert ks[0] == kb[0] && ks[1..] == KeepListed(order[1..], small) && kb[1..] == KeepListed(order[1..], big);
      } else if order[0] in big {
        assert ks == KeepListed(order[1..], small) && kb[1..] == KeepListed(order[1..], big);
      } else {
        assert ks == KeepListed(order[1..], small) && kb == KeepListed(order[1..], big);
      }
    }
  }

  /** An element the order does not hold makes no difference to the filter. */
  lemma {:induction false} KeepListedIgnores(order: seq<string>, y: string, t: seq<string>)
    requires y !in order
    ensures KeepListed(order, [y] + t) == KeepListed(order, t)
  {
    if |order| > 0 {
      assert order[0] in [y] + t <==> order[0] in t;
      assert order == [order[0]] + order[1..];
      KeepListedIgnores(order[1..], y, t);
    }
  }

  /** Filtering a duplicate-free order by one of its own subsequences gives
      that subsequence back. */
  lemma {:induction false} KeepListedOfSubseq(order: seq<string>, xs: seq<string>)
    requires Distinct(order) && Subseq(xs, order)
    ensures KeepListed(order, xs) == xs
    decreases |order|
  {
    if |order| > 0 {
      var o := order[0];
      var rest := order[1..];
      assert order == [o] + rest;
      DistinctCons(o, rest);
      SubseqMembers(xs, rest);
      if |xs| > 0 && xs[0] == o {
        assert Subseq(xs[1..], rest);
        assert xs == [o] + xs[1..];
        KeepListedIgnores(rest, o, xs[1..]);
        KeepListedOfSubseq(rest, xs[1..]);
      } else {
        assert Subseq(xs, rest);
        KeepListedOfSubseq(rest, xs);
      }
    }
  }

  // ---------- detection ----------

  lemma OrderIsDetectorOrder()
    ensures NamesOf(DETECTORS) == ORDER
    ensures Distinct(ORDER)
  {
    OrderNames();
    forall i | 0 <= i < |DETECTORS|
      ensures Rank(DETECTORS[i]) == i
    {
    }
    NamesDistinct(DETECTORS);
  }

  /** Stacks with distinct positions have distinct names. */
  lemma NamesDistinct(ds: seq<Stack>)
    requires forall i :: 0 <= i < |ds| ==> Rank(ds[i]) == i
    ensures Distinct(NamesOf(ds))
  {
    var n := NamesOf(ds);
    forall i, j | 0 <= i < j < |n|
      ensures n[i] != n[j]
    {
      ParseName(ds[i]);
      ParseName(ds[j]);
    }
  }

  lemma OrderNames()
    ensures NamesOf(DETECTORS) == ORDER
  {
  }

  /** The position of each detector in `DETECTORS`. */
  function Rank(s: Stack): nat {
    match s
    case Node => 0
    case Python => 1
    case Go => 2
    case Rust => 3
    case Java => 4
    case CSharp => 5
    case Swift => 6
    case Docker => 7
    case Editors => 8
    case Os => 9
  }

  lemma {:induction false} FiredSubseq(p: Probes, ds: seq<Stack>)
    ensures Subseq(Fired(p, ds), NamesOf(ds))
  {
    if |ds| > 0 {
      FiredSubseq(p, ds[1..]);
      var f := Fired(p, ds);
      var n := NamesOf(ds);
      assert n[1..] == NamesOf(ds[1..]);
      if Detected(p, ds[0]) {
        assert f[0] == n[0] && f[1..] == Fired(p, ds[1..]);
      } else {
        assert f == Fired(p, ds[1..]);
      }
    }
  }

  lemma {:induction false} FiredMembers(p: Probes, ds: seq<Stack>, s: Stack)
    ensures Name(s) in Fired(p, ds) <==> s in ds && Detected(p, s)
  {
    if |ds| > 0 {
      FiredMembers(p, ds[1..], s);
      assert ds == [ds[0]] + ds[1..];
      ParseName(s);
      ParseName(ds[0]);
    }
  }

  /** The canonical reordering changes nothing: the detectors already append
      in canonical order. */
  lemma ReorderIsNoOp(p: Probes)
    ensures DetectPlatforms(p) == Fired(p, DETECTORS)
  {
    OrderIsDetectorOrder();
    FiredSubseq(p, DETECTORS);
    KeepListedOfSubseq(ORDER, Fired(p, DETECTORS));
  }

  /** Every stack has a detector. */
  lemma EveryStackAsked(s: Stack)
    ensures s in DETECTORS
  {
    assert DETECTORS[Rank(s)] == s;
  }

  /** The result keeps the canonical order and holds no stack twice. */
  lemma DetectOrdered(p: Probes)
    ensures Subseq(DetectPlatforms(p), ORDER)
    ensures Distinct(DetectPlatforms(p))
    ensures forall x :: x in DetectPlatforms(p) ==> x in ORDER
  {
    OrderIsDetectorOrder();
    KeepListedSubseq(ORDER, Fired(p, DETECTORS));
    SubseqDistinct(DetectPlatforms(p), ORDER);
    SubseqMembers(DetectPlatforms(p), ORDER);
  }

  /** A stack is in the result exactly when its detector fired. */
  lemma DetectMembers(p: Probes, s: Stack)
    ensures Name(s) in DetectPlatforms(p) <==> Detected(p, s)
  {
    ReorderIsNoOp(p);
    EveryStackAsked(s);
    FiredMembers(p, DETECTORS, s);
  }

  /** Editors and OS cruft are always detected, so the result is never
      empty. */
  lemma DetectAlwaysEditorsOs(p: Probes)
    ensures "editors" in DetectPlatforms(p) && "os" in DetectPlatforms(p)
    ensures |DetectPlatforms(p)| >= 2
  {
    DetectMembers(p, Editors);
    DetectMembers(p, Os);
    var r := DetectPlatforms(p);
    var i :| 0 <= i < |r| && r[i] == "editors";
    var j :| 0 <= j < |r| && r[j] == "os";
    assert i != j;
  }

  /** Every probe that fires for `p` also fires for `q`. */
  predicate Within(p: Probes, q: Probes) {
    forall s :: Detected(p, s) ==> Detected(q, s)
  }

  /** More probes firing only adds stacks, and never reorders them. */
  lemma DetectMonotone(p: Probes, q: Probes)
    requires Within(p, q)
    ensures Subseq(DetectPlatforms(p), DetectPlatforms(q))
  {
    forall x | x in Fired(p, DETECTORS)
      ensures x in Fired(q, DETECTORS)
    {
      FiredSubseq(p, DETECTORS);
      SubseqMembers(Fired(p, DETECTORS), NamesOf(DETECTORS));
      var i :| 0 <= i < |DETECTORS| && NamesOf(DETECTORS)[i] == x;
      var s := DETECTORS[i];
      FiredMembers(p, DETECTORS, s);
      FiredMembers(q, DETECTORS, s);
    }
    KeepListedMonotone(ORDER, Fired(p, DETECTORS), Fired(q, DETECTORS));
  }
}

=== FILE: generate.dfy ===
/**
 The block generator: for each requested stack name, in the order given, an
 optional `### <title>` header, every rule of its template not emitted
 before (one set shared by all stacks), and an optional blank separator;
 the lines are joined with newlines, right-trimmed and closed by a single
 newline. Names the table does not know are skipped.
 */
module Generate {
  import opened Text
  import opened Templates

  /** One entry of the generator's line list. */
  datatype Line = Header(title: string) | Rule(rule: string) | Blank

  /** The text of one line: a header is a `#` comment ending in its title. */
  function Render(l: Line): (r: string)
    ensures l.Header? ==> |r| > |l.title| && r[0] == '#' && r[|r| - |l.title|..] == l.title
    ensures l.Rule? ==> r == l.rule
    ensures l.Blank? ==> r == ""
  {
    match l
    case Header(t) => "### " + t
    case Rule(r) => r
    case Blank => ""
  }

  function RenderAll(lines: seq<Line>): (r: seq<string>)
    ensures |r| == |lines| && forall i :: 0 <= i < |lines| ==> r[i] == Render(lines[i])
  {
    if |lines| == 0 then [] else [Render(lines[0])] + RenderAll(lines[1..])
  }

  function Elems(s: seq<string>): set<string> {
    set x | x in s
  }

  /** The rule strings of the `Rule` lines, in order. */
  function RuleNames(lines: seq<Line>): seq<string> {
    if |lines| == 0 then []
    else (if lines[0].Rule? then [lines[0].rule] else []) + RuleNames(lines[1..])
  }

  /** The titles of the `Header` lines, in order. */
  function Headers(lines: seq<Line>): seq<string> {
    if |lines| == 0 then []
    else (if lines[0].Header? then [lines[0].title] else []) + Headers(lines[1..])
  }

  function AsRules(e: seq<string>): (r: seq<Line>)
    ensures |r| == |e| && forall i :: 0 <= i < |e| ==> r[i] == Rule(e[i])
  {
    if |e| == 0 then [] else [Rule(e[0])] + AsRules(e[1..])
  }

  /** The names in `stacks` the table knows, in the order given. */
  function KnownOnly(stacks: seq<string>): (r: seq<string>)
    ensures forall i :: 0 <= i < |r| ==> Known(r[i])
    ensures forall x :: x in r <==> x in stacks && Known(x)
    ensures Subseq(r, stacks)
    ensures forall x :: multiset(r)[x] == if Known(x) then multiset(stacks)[x] else 0
  {
    if |stacks| == 0 then []
    else
      assert stacks == [stacks[0]] + stacks[1..];
      if Known(stacks[0]) then [stacks[0]] + KnownOnly(stacks[1..])
      else KnownOnly(stacks[1..])
  }

  /** The titles of the known names in `stacks`, in the order given. */
  function KnownTitles(stacks: seq<string>): seq<string> {
    if |stacks| == 0 then []
    else
      (match Lookup(stacks[0]) case None => [] case Some(t) => [t.title])
      + KnownTitles(stacks[1..])
  }

  /** Every rule of every known name in `stacks`. */
  function KnownRules(stacks: seq<string>): set<string> {
    if |stacks| == 0 then {}
    else
      (match Lookup(stacks[0]) case None => {} case Some(t) => Elems(t.rules))
      + KnownRules(stacks[1..])
  }

  /** The inner loop over one template: the rules not yet in `used`, each
      once, and the grown `used` set. */
  function EmitRules(rules: seq<string>, used: set<string>): (r: (seq<string>, set<string>))
    ensures r.1 == used + Elems(rules)
    ensures forall x :: x in r.0 <==> x in rules && x !in used
    ensures Distinct(r.0)
    ensures Subseq(r.0, rules)
  {
    if |rules| == 0 then ([], used)
    else if rules[0] in used then EmitRules(rules[1..], used)
    else
      var rest := EmitRules(rules[1..], used + {rules[0]});
      ([rules[0]] + rest.0, rest.1)
  }

  /** The lines one known stack contributes. */
  function Section(t: Template, explain: bool, emitted: seq<string>): (r: seq<Line>)
    ensures |r| == |emitted| + if explain then 2 else 0
    ensures explain ==> r[0] == Header(t.title) && r[|r| - 1] == Blank
    ensures !explain ==> forall i :: 0 <= i < |r| ==> r[i] == Rule(emitted[i])
  {
    (if explain then [Header(t.title)] else []) + AsRules(emitted) + (if explain then [Blank] else [])
  }

  /** The outer loop: the line list and the `used` set after all of `stacks`. */
  function GenLines(stacks: seq<string>, explain: bool, used: set<string>): (seq<Line>, set<string>) {
    if |stacks| == 0 then ([], used)
    else
      match Lookup(stacks[0])
      case None => GenLines(stacks[1..], explain, used)
      case Some(t) =>
        var (emitted, used') := EmitRules(t.rules, used);
        var (rest, used'') := GenLines(stacks[1..], explain, used');
        (Section(t, explain, emitted) + rest, used'')
  }

  /** The line list `generate_gitignore` builds before joining. */
  function Lines(stacks: seq<string>, explain: bool): seq<Line> {
    GenLines(stacks, explain, {}).0
  }

  /** `generate_gitignore(stacks, explain)`. */
  function Generate(stacks: seq<string>, explain: bool): (r: string)
    ensures |r| > 0 && r[|r| - 1] == '\n'
    ensures |r| == 1 || !IsSpace(r[|r| - 2])
  {
    RStrip(JoinLines(RenderAll(Lines(stacks, explain)))) + "\n"
  }

  // ---------- list lemmas ----------

  lemma {:induction false} RuleNamesAppend(a: seq<Line>, b: seq<Line>)
    ensures RuleNames(a + b) == RuleNames(a) + RuleNames(b)
  {
    if |a| == 0 {
      assert a + b == b;
    } else {
      assert (a + b)[0] == a[0];
      assert (a + b)[1..] == a[1..] + b;
      RuleNamesAppend(a[1..], b);
    }
  }

  lemma {:induction false} HeadersAppend(a: seq<Line>, b: seq<Line>)
    ensures Headers(a + b) == Headers(a) + Headers(b)
  {
    if |a| == 0 {
      assert a + b == b;
    } else {
      assert (a + b)[0] == a[0];
      assert (a + b)[1..] == a[1..] + b;
      HeadersAppend(a[1..], b);
    }
  }

  lemma {:induction false} AsRulesNames(e: seq<string>)
    ensures RuleNames(AsRules(e)) == e
    ensures Headers(AsRules(e)) == []
  {
    if |e| > 0 {
      AsRulesNames(e[1..]);
    }
  }

  lemma SectionNames(t: Template, explain: bool, e: seq<string>)
    ensures RuleNames(Section(t, explain, e)) == e
    ensures Headers(Section(t, explain, e)) == if explain then [t.title] else []
  {
    var h: seq<Line> := if explain then [Header(t.title)] else [];
    var b: seq<Line> := if explain then [Blank] else [];
    AsRulesNames(e);
    RuleNamesAppend(h, AsRules(e));
    RuleNamesAppend(h + AsRules(e), b);
    HeadersAppend(h, AsRules(e));
    HeadersAppend(h + AsRules(e), b);
  }

  lemma DistinctAppend(a: seq<string>, b: seq<string>)
    requires Distinct(a) && Distinct(b)
    requires forall x :: x in a ==> x !in b
    ensures Distinct(a + b)
  {
    forall i, j | 0 <= i < j < |a + b|
      ensures (a + b)[i] != (a + b)[j]
    {
      if j >= |a| && i < |a| {
        assert (a + b)[j] == b[j - |a|] && (a + b)[j] in b;
      }
    }
  }

  // ---------- generator properties ----------

  /** The outer loop keeps the generator's invariant: `used` grows by exactly
      the rules of the known stacks, the rule lines are exactly the rules not
      used before, and no rule line repeats. */
  lemma {:induction false} GenLinesInvariant(stacks: seq<string>, explain: bool, used: set<string>)
    ensures GenLines(stacks, explain, used).1 == used + KnownRules(stacks)
    ensures Elems(RuleNames(GenLines(stacks, explain, used).0)) == KnownRules(stacks) - used
    ensures Distinct(RuleNames(GenLines(stacks, explain, used).0))
  {
    if |stacks| > 0 {
      var tail := stacks[1..];
      match Lookup(stacks[0])
      case None =>
        GenLinesInvariant(tail, explain, used);
      case Some(t) =>
        var e := EmitRules(t.rules, used);
        var g := GenLines(tail, explain, e.1);
        assert GenLines(stacks, explain, used) == (Section(t, explain, e.0) + g.0, g.1);
        assert KnownRules(stacks) == Elems(t.rules) + KnownRules(tail);
        GenLinesInvariant(tail, explain, e.1);
        SectionNames(t, explain, e.0);
        RuleNamesAppend(Section(t, explain, e.0), g.0);
        SectionStep(t.rules, KnownRules(tail), used, e.0, RuleNames(g.0));
    }
  }

  /** The set bookkeeping of one step of the outer loop. */
  lemma SectionStep(rules: seq<string>, later: set<string>, used: set<string>,
                    emitted: seq<string>, rest: seq<string>)
    requires forall x :: x in emitted <==> x in rules && x !in used
    requires Distinct(emitted) && Distinct(rest)
    requires Elems(rest) == later - (used + Elems(rules))
    ensures Elems(emitted + rest) == (Elems(rules) + later) - used
    ensures Distinct(emitted + rest)
  {
    forall x | x in emitted
      ensures x !in rest
    {
      assert x in Elems(rules);
      assert x in rest ==> x in Elems(rest);
    }
    DistinctAppend(emitted, rest);
    assert Elems(emitted + rest) == Elems(emitted) + Elems(rest);
  }

  /** Headers appear once per known stack, in the order the stacks were
      passed; without `explain` there are none. */
  lemma {:induction false} GenLinesHeaders(stacks: seq<string>, explain: bool, used: set<string>)
    ensures Headers(GenLines(stacks, explain, used).0) == if explain then KnownTitles(stacks) else []
  {
    if |stacks| > 0 {
      match Lookup(stacks[0])
      case None =>
        GenLinesHeaders(stacks[1..], explain, used);
      case Some(t) =>
        var (emitted, used') := EmitRules(t.rules, used);
        var (rest, used'') := GenLines(stacks[1..], explain, used');
        GenLinesHeaders(stacks[1..], explain, used');
        SectionNames(t, explain, emitted);
        HeadersAppend(Section(t, explain, emitted), rest);
    }
  }

  /** Names the table does not know contribute nothing: the output is that of
      the known names alone. */
  lemma {:induction false} GenLinesSkipsUnknown(stacks: seq<string>, explain: bool, used: set<string>)
    ensures GenLines(stacks, explain, used) == GenLines(KnownOnly(stacks), explain, used)
  {
    if |stacks| > 0 {
      var k := KnownOnly(stacks[1..]);
      if Known(stacks[0]) {
        assert KnownOnly(stacks) == [stacks[0]] + k;
        assert KnownOnly(stacks)[1..] == k;
        var t := Lookup(stacks[0]).value;
        GenLinesSkipsUnknown(stacks[1..], explain, EmitRules(t.rules, used).1);
      } else {
        assert KnownOnly(stacks) == k;
        GenLinesSkipsUnknown(stacks[1..], explain, used);
      }
    }
  }

  /** `x` belongs to `KnownRules(stacks)` exactly when some known name in
      `stacks` lists it. */
  lemma {:induction false} KnownRulesMembers(stacks: seq<string>, x: string)
    ensures x in KnownRules(stacks) <==>
      exists k :: 0 <= k < |stacks| && Known(stacks[k]) && x in Lookup(stacks[k]).value.rules
  {
    if |stacks| > 0 {
      KnownRulesMembers(stacks[1..], x);
      if x in KnownRules(stacks[1..]) {
        var k :| 1 <= k + 1 < |stacks| && Known(stacks[1..][k]) && x in Lookup(stacks[1..][k]).value.rules;
        assert stacks[k + 1] == stacks[1..][k];
      }
      if exists k :: 0 <= k < |stacks| && Known(stacks[k]) && x in Lookup(stacks[k]).value.rules {
        var k :| 0 <= k < |stacks| && Known(stacks[k]) && x in Lookup(stacks[k]).value.rules;
        if k > 0 {
          assert stacks[1..][k - 1] == stacks[k];
        }
      }
    }
  }

  /** The generator never emits the same rule line twice, even when two
      selected stacks share a rule. */
  lemma NoDuplicateRules(stacks: seq<string>, explain: bool)
    ensures Distinct(RuleNames(Lines(stacks, explain)))
  {
    GenLinesInvariant(stacks, explain, {});
  }

  /** A rule is emitted exactly when some known stack in the input lists it:
      every rule of every known stack appears, and nothing else does. */
  lemma EmitsExactlyKnownRules(stacks: seq<string>, explain: bool, x: string)
    ensures x in RuleNames(Lines(stacks, explain)) <==>
      exists k :: 0 <= k < |stacks| && Known(stacks[k]) && x in Lookup(stacks[k]).value.rules
  {
    GenLinesInvariant(stacks, explain, {});
    KnownRulesMembers(stacks, x);
    assert x in RuleNames(Lines(stacks, explain)) <==> x in Elems(RuleNames(Lines(stacks, explain)));
  }

  /** With `explain`, the headers are the titles of the known stacks in the
      order they were passed; without it there are no headers. */
  lemma HeadersInOrder(stacks: seq<string>, explain: bool)
    ensures Headers(Lines(stacks, explain)) == if explain then KnownTitles(stacks) else []
  {
    GenLinesHeaders(stacks, explain, {});
  }

  lemma {:induction false} DistinctCount(s: seq<string>, x: string)
    requires Distinct(s) && x in s
    ensures multiset(s)[x] == 1
  {
    if s[0] == x {
      assert s == [s[0]] + s[1..];
      assert x !in s[1..];
    } else {
      assert s == [s[0]] + s[1..];
      DistinctCount(s[1..], x);
    }
  }

  /** `java` and `editors` both list `.idea/`; generated together, the rule
      is emitted exactly once. */
  lemma JavaEditorsIdeaOnce(explain: bool)
    ensures multiset(RuleNames(Lines(["java", "editors"], explain)))[".idea/"] == 1
  {
    var stacks := ["java", "editors"];
    assert Known(stacks[0]) && ".idea/" in Lookup(stacks[0]).value.rules;
    EmitsExactlyKnownRules(stacks, explain, ".idea/");
    NoDuplicateRules(stacks, explain);
    DistinctCount(RuleNames(Lines(stacks, explain)), ".idea/");
  }

  lemma {:induction false} NoKnownNoLines(stacks: seq<string>, explain: bool, used: set<string>)
    requires forall i :: 0 <= i < |stacks| ==> !Known(stacks[i])
    ensures GenLines(stacks, explain, used).0 == []
  {
    if |stacks| > 0 {
      NoKnownNoLines(stacks[1..], explain, used);
    }
  }

  lemma RuleNamesMember(lines: seq<Line>, x: string)
    requires x in RuleNames(lines)
    ensures exists i :: 0 <= i < |lines| && lines[i] == Rule(x)
  {
    if |lines| > 0 {
      if !(lines[0].Rule? && lines[0].rule == x) {
        RuleNamesMember(lines[1..], x);
        var i :| 0 <= i < |lines[1..]| && lines[1..][i] == Rule(x);
        assert lines[i + 1] == Rule(x);
      }
    }
  }

  /** The generated block is just "\n" exactly when no requested name is a
      known stack. */
  lemma GenerateEmptyIffNoKnownStack(stacks: seq<string>, explain: bool)
    ensures Generate(stacks, explain) == "\n" <==> forall i :: 0 <= i < |stacks| ==> !Known(stacks[i])
  {
    var lines := Lines(stacks, explain);
    if forall i :: 0 <= i < |stacks| ==> !Known(stacks[i]) {
      NoKnownNoLines(stacks, explain, {});
    } else {
      var k :| 0 <= k < |stacks| && Known(stacks[k]);
      var t := Lookup(stacks[k]).value;
      var s :| Name(s) == stacks[k];
      TemplatesLeadWithVisibleRule(s);
      var x := t.rules[0];
      EmitsExactlyKnownRules(stacks, explain, x);
      RuleNamesMember(lines, x);
      var i :| 0 <= i < |lines| && lines[i] == Rule(x);
      VisibleIsNotSpace(x[0]);
      assert !IsBlank(RenderAll(lines)[i]);
      assert |RStrip(JoinLines(RenderAll(lines)))| > 0;
    }
  }
  // ---------- order of the rule lines ----------

  /** The rules of the known names in `stacks`, template after template, with
      repeats: the sequence the generator walks through. */
  function AllRules(stacks: seq<string>): seq<string> {
    if |stacks| == 0 then []
    else
      (match Lookup(stacks[0]) case None => [] case Some(t) => t.rules)
      + AllRules(stacks[1..])
  }

  /** Reference definition of de-duplication: an element of `s` is kept when
      it is not in `seen` and does not occur earlier in `s`; what is kept
      stays in the order of `s`. */
  function FirstOccurrences(s: seq<string>, seen: set<string>): seq<string>
    decreases |s|
  {
    if |s| == 0 then []
    else
      var init := s[..|s| - 1];
      var x := s[|s| - 1];
      FirstOccurrences(init, seen) + (if x in seen || x in init then [] else [x])
  }

  /** Running the inner loop over `a + b` is running it over `a`, then over
      `b` with `used` grown by the rules of `a`. */
  lemma {:induction false} EmitRulesAppend(a: seq<string>, b: seq<string>, used: set<string>)
    ensures EmitRules(a + b, used).0 == EmitRules(a, used).0 + EmitRules(b, used + Elems(a)).0
    decreases |a|
  {
    if |a| == 0 {
      assert a + b == b;
      assert used + Elems(a) == used;
    } else {
      assert (a + b)[0] == a[0];
      assert (a + b)[1..] == a[1..] + b;
      assert Elems(a) == {a[0]} + Elems(a[1..]);
      if a[0] in used {
        EmitRulesAppend(a[1..], b, used);
        assert used + Elems(a[1..]) == used + Elems(a);
      } else {
        EmitRulesAppend(a[1..], b, used + {a[0]});
        assert used + {a[0]} + Elems(a[1..]) == used + Elems(a);
      }
    }
  }

  /** The inner loop keeps exactly the first occurrences of the rules not
      used before, in template order. */
  lemma {:induction false} EmitRulesFirst(s: seq<string>, seen: set<string>)
    ensures EmitRules(s, seen).0 == FirstOccurrences(s, seen)
    decreases |s|
  {
    if |s| > 0 {
      var init := s[..|s| - 1];
      var x := s[|s| - 1];
      assert s == init + [x];
      EmitRulesAppend(init, [x], seen);
      EmitRulesFirst(init, seen);
      assert x in seen + Elems(init) <==> x in seen || x in init;
    }
  }

  /** The rule lines of the whole run are the inner loop run once over all
      the known templates' rules in sequence. */
  lemma {:induction false} GenLinesRules(stacks: seq<string>, explain: bool, used: set<string>)
    ensures RuleNames(GenLines(stacks, explain, used).0) == EmitRules(AllRules(stacks), used).0
  {
    if |stacks| > 0 {
      var tail := stacks[1..];
      match Lookup(stacks[0])
      case None =>
        assert AllRules(stacks) == AllRules(tail);
        assert GenLines(stacks, explain, used) == GenLines(tail, explain, used);
        GenLinesRules(tail, explain, used);
      case Some(t) =>
        var e := EmitRules(t.rules, used);
        var g := GenLines(tail, explain, e.1);
        assert GenLines(stacks, explain, used).0 == Section(t, explain, e.0) + g.0;
        assert AllRules(stacks) == t.rules + AllRules(tail);
        GenLinesRules(tail, explain, e.1);
        SectionNames(t, explain, e.0);
        RuleNamesAppend(Section(t, explain, e.0), g.0);
        EmitRulesAppend(t.rules, AllRules(tail), used);
        assert RuleNames(GenLines(stacks, explain, used).0) == e.0 + RuleNames(g.0);
    }
  }

  /** Rule lines come out in the order the stacks were passed and, within a
      stack, in template order; a rule shared by two stacks is emitted where
      it first occurs. */
  lemma RuleOrder(stacks: seq<string>, explain: bool)
    ensures RuleNames(Lines(stacks, explain)) == FirstOccurrences(AllRules(stacks), {})
    ensures Subseq(RuleNames(Lines(stacks, explain)), AllRules(stacks))
  {
    GenLinesRules(stacks, explain, {});
    EmitRulesFirst(AllRules(stacks), {});
  }
  // ---------- the generated text ----------

  /** A line whose rendering is one line of text that keeps its kind: a rule
      reads as a rule, a header as a header, and neither ends in whitespace. */
  predicate GoodLine(l: Line) {
    match l
    case Header(t) => TitleText(t)
    case Rule(r) => RuleText(r)
    case Blank => true
  }

  predicate AllGood(lines: seq<Line>) {
    forall l :: l in lines ==> GoodLine(l)
  }

  lemma RenderGood(l: Line)
    requires GoodLine(l)
    ensures '\n' !in Render(l)
    ensures RuleText(Render(l)) <==> l.Rule?
    ensures l != Blank ==> |Render(l)| > 0 && !IsSpace(Render(l)[|Render(l)| - 1])
  {
    if l.Header? {
      assert Render(l)[0] == '#';
    }
  }

  /** The line list without its trailing blank lines. */
  function DropBlankTail(lines: seq<Line>): (r: seq<Line>)
    ensures r <= lines
    ensures |r| == 0 || r[|r| - 1] != Blank
    ensures forall i :: |r| <= i < |lines| ==> lines[i] == Blank
  {
    if |lines| > 0 && lines[|lines| - 1] == Blank then DropBlankTail(lines[..|lines| - 1])
    else lines
  }

  /** The strings of `lines` that read as rules, in order. */
  function RuleLines(lines: seq<string>): seq<string> {
    if |lines| == 0 then []
    else (if RuleText(lines[0]) then [lines[0]] else []) + RuleLines(lines[1..])
  }

  lemma {:induction false} RuleLinesAppend(a: seq<string>, b: seq<string>)
    ensures RuleLines(a + b) == RuleLines(a) + RuleLines(b)
  {
    if |a| == 0 {
      assert a + b == b;
    } else {
      assert (a + b)[0] == a[0];
      assert (a + b)[1..] == a[1..] + b;
      RuleLinesAppend(a[1..], b);
    }
  }

  lemma {:induction false} RuleLinesMember(lines: seq<string>, x: string)
    ensures x in RuleLines(lines) <==> x in lines && RuleText(x)
  {
    if |lines| > 0 {
      assert lines == [lines[0]] + lines[1..];
      RuleLinesMember(lines[1..], x);
    }
  }

  /** Rendering loses no rule and invents none: the rendered lines that read
      as rules are the rule lines. */
  lemma {:induction false} RuleLinesRender(lines: seq<Line>)
    requires AllGood(lines)
    ensures RuleLines(RenderAll(lines)) == RuleNames(lines)
  {
    if |lines| > 0 {
      assert RenderAll(lines) == [Render(lines[0])] + RenderAll(lines[1..]);
      assert lines[0] in lines;
      assert forall l :: l in lines[1..] ==> l in lines;
      RenderGood(lines[0]);
      RuleLinesRender(lines[1..]);
    }
  }

  lemma {:induction false} DropBlankTailRules(lines: seq<Line>)
    ensures RuleNames(DropBlankTail(lines)) == RuleNames(lines)
  {
    if |lines| > 0 && lines[|lines| - 1] == Blank {
      var init := lines[..|lines| - 1];
      assert lines == init + [Blank];
      RuleNamesAppend(init, [Blank]);
      DropBlankTailRules(init);
    }
  }

  lemma RenderAllSnoc(a: seq<Line>, x: Line)
    ensures RenderAll(a + [x]) == RenderAll(a) + [Render(x)]
  {
  }

  /** `rstrip` removes exactly the trailing blank lines and nothing of the
      last remaining line. */
  lemma {:induction false} StripBlankTail(lines: seq<Line>)
    requires AllGood(lines)
    ensures RStrip(JoinLines(RenderAll(lines))) == JoinLines(RenderAll(DropBlankTail(lines)))
    decreases |lines|
  {
    if |lines| > 0 {
      var init := lines[..|lines| - 1];
      var x := lines[|lines| - 1];
      GoodSplit(lines);
      RenderAllSnoc(init, x);
      if x == Blank {
        assert DropBlankTail(lines) == DropBlankTail(init);
        StripBlankTail(init);
        RStripEmptyLast(RenderAll(init));
      } else {
        assert DropBlankTail(lines) == lines;
        RenderGood(x);
        RStripVisibleLast(RenderAll(init), Render(x));
      }
    }
  }

  lemma GoodSplit(lines: seq<Line>)
    requires AllGood(lines) && |lines| > 0
    ensures lines == lines[..|lines| - 1] + [lines[|lines| - 1]]
    ensures AllGood(lines[..|lines| - 1]) && GoodLine(lines[|lines| - 1])
  {
    assert lines[|lines| - 1] in lines;
    assert forall l :: l in lines[..|lines| - 1] ==> l in lines;
  }

  lemma {:induction false} AsRulesGood(e: seq<string>)
    requires forall x :: x in e ==> RuleText(x)
    ensures AllGood(AsRules(e))
    ensures forall l :: l in AsRules(e) ==> l.Rule?
  {
    if |e| > 0 {
      assert e[0] in e;
      assert forall x :: x in e[1..] ==> x in e;
      AsRulesGood(e[1..]);
    }
  }

  /** Every line the generator builds is well formed, because every template
      of the table is. */
  lemma {:induction false} GenLinesGood(stacks: seq<string>, explain: bool, used: set<string>)
    ensures AllGood(GenLines(stacks, explain, used).0)
  {
    if |stacks| > 0 {
      var tail := stacks[1..];
      match Lookup(stacks[0])
      case None =>
        GenLinesGood(tail, explain, used);
      case Some(t) =>
        var s :| Name(s) == stacks[0];
        TemplatesWellFormed(s);
        assert t == TemplateOf(s);
        var e := EmitRules(t.rules, used);
        forall x | x in e.0
          ensures RuleText(x)
        {
          var i :| 0 <= i < |t.rules| && t.rules[i] == x;
        }
        AsRulesGood(e.0);
        GenLinesGood(tail, explain, e.1);
        assert GenLines(stacks, explain, used).0 == Section(t, explain, e.0) + GenLines(tail, explain, e.1).0;
    }
  }

  lemma RenderedOneLineEach(lines: seq<Line>)
    requires AllGood(lines)
    ensures forall s :: s in RenderAll(lines) ==> '\n' !in s
  {
    forall s | s in RenderAll(lines)
      ensures '\n' !in s
    {
      var i :| 0 <= i < |lines| && RenderAll(lines)[i] == s;
      assert lines[i] in lines;
      RenderGood(lines[i]);
    }
  }

  /** The returned text is the kept lines, joined, plus the final newline
      (an empty kept list joins to the empty line). */
  lemma GenerateIsJoin(stacks: seq<string>, explain: bool)
    ensures var kept := DropBlankTail(Lines(stacks, explain));
      Generate(stacks, explain) == JoinLines((if |kept| == 0 then [""] else RenderAll(kept)) + [""])
    ensures AllGood(DropBlankTail(Lines(stacks, explain)))
  {
    var lines := Lines(stacks, explain);
    var kept := DropBlankTail(lines);
    GenLinesGood(stacks, explain, {});
    StripBlankTail(lines);
    assert forall l :: l in kept ==> l in lines;
    JoinNewline(RenderAll(kept));
  }

  /** The lines of the returned text: the rendered line list without its
      trailing blank lines (a single empty line when nothing remains), then
      the empty piece after the closing newline. */
  lemma GenerateLines(stacks: seq<string>, explain: bool)
    ensures var kept := DropBlankTail(Lines(stacks, explain));
      SplitLines(Generate(stacks, explain)) == (if |kept| == 0 then [""] else RenderAll(kept)) + [""]
  {
    var kept := DropBlankTail(Lines(stacks, explain));
    GenerateIsJoin(stacks, explain);
    var body := if |kept| == 0 then [""] else RenderAll(kept);
    RenderedOneLineEach(kept);
    assert forall s :: s in body + [""] ==> s in body || s == "";
    SplitJoin(body + [""]);
  }

  /** Read back as text, the block holds each rule of the known stacks on a
      line of its own, exactly once, in first-occurrence order, and no other
      line reads as a rule. */
  lemma GenerateRuleLines(stacks: seq<string>, explain: bool)
    ensures RuleLines(SplitLines(Generate(stacks, explain))) == FirstOccurrences(AllRules(stacks), {})
    ensures Distinct(RuleLines(SplitLines(Generate(stacks, explain))))
    ensures forall x :: RuleText(x) ==>
      (x in SplitLines(Generate(stacks, explain)) <==> x in KnownRules(stacks))
  {
    var lines := Lines(stacks, explain);
    var kept := DropBlankTail(lines);
    var text := SplitLines(Generate(stacks, explain));
    GenerateLines(stacks, explain);
    GenLinesGood(stacks, explain, {});
    assert forall l :: l in kept ==> l in lines;
    var body := if |kept| == 0 then [""] else RenderAll(kept);
    RuleLinesAppend(body, [""]);
    RuleLinesRender(kept);
    DropBlankTailRules(lines);
    assert RuleLines(text) == RuleNames(lines);
    RuleOrder(stacks, explain);
    NoDuplicateRules(stacks, explain);
    GenLinesInvariant(stacks, explain, {});
    forall x | RuleText(x)
      ensures x in text <==> x in KnownRules(stacks)
    {
      RuleLinesMember(text, x);
      assert x in RuleNames(lines) <==> x in Elems(RuleNames(lines));
    }
  }
}

=== FILE: merge.dfy ===
/**
 The merge engine: splices a generated block into an existing ignore file
 between the literal marker lines, or appends it with both markers when the
 file does not hold both of them. The splice is written for any pair of
 markers; `MergeWithExisting` fixes the tool's own pair.
 */
module Merge {
  import opened Text

  const BEGIN: string := "# >>> gitignore-doctor:begin"
  const END: string := "# >>> gitignore-doctor:end"

  /** What the splice needs of its markers: occurrences of either cannot
      overlap, the opening marker holds no newline and ends in a visible
      character, and it does not contain the closing marker. */
  predicate MarkerPair(opener: string, closer: string) {
    && StartUnique(opener) && StartUnique(closer)
    && '\n' !in opener && '\n' !in closer
    && !IsSpace(opener[|opener| - 1])
    && !Contains(opener, closer)
  }

  /** The tool's markers have that shape. */
  lemma MarkersArePair()
    ensures MarkerPair(BEGIN, END)
    ensures BEGIN[0] == '#' && END[0] == '#'
  {
    assert BEGIN[..|END|] != END by {
      assert BEGIN[23] != END[23];
    }
    forall k | 0 <= k
      ensures !OccursAt(BEGIN, END, k)
    {
      if 0 < k && k + |END| <= |BEGIN| {
        assert BEGIN[k] != '#';
      }
    }
  }

  /** What stays in front of an appended block: the existing text without
      its trailing whitespace and followed by one blank line, or nothing at
      all when the existing text is blank. The test `existing.strip()` is
      written `!IsBlank(existing)`: `Text.Strip` states that the two agree. */
  function AppendBase(existing: string): string {
    if !IsBlank(existing) then RStrip(existing) + "\n\n" else ""
  }

  /** `merge_with_existing`, for the markers `opener` and `closer`. */
  function Splice(block: string, existing: string, opener: string, closer: string): (r: string)
    requires |opener| > 0 && |closer| > 0
    ensures Contains(r, opener) && Contains(r, closer)
  {
    if Contains(existing, opener) && Contains(existing, closer) then
      var tail := SplitTail(existing, closer);
      HoldsBoth(SplitHead(existing, opener), opener, block, closer, tail);
      SplitHead(existing, opener) + opener + "\n" + block + closer + tail
    else
      HoldsBoth(AppendBase(existing), opener, block, closer, "\n");
      AppendBase(existing) + opener + "\n" + block + closer + "\n"
  }

  /** A block between the two markers holds both of them. */
  lemma HoldsBoth(a: string, opener: string, block: string, closer: string, tail: string)
    ensures Contains(a + opener + "\n" + block + closer + tail, opener)
    ensures Contains(a + opener + "\n" + block + closer + tail, closer)
  {
    var r := a + opener + "\n" + block + closer + tail;
    assert OccursAt(r, opener, |a|);
    assert OccursAt(r, closer, |a| + |opener| + 1 + |block|);
  }

  /** `merge_with_existing(block, existing)`. */
  function MergeWithExisting(block: string, existing: string): (r: string)
    ensures Contains(r, BEGIN) && Contains(r, END)
  {
    Splice(block, existing, BEGIN, END)
  }

  lemma Regroup(a: string, b: string, c: string, d: string, e: string, f: string)
    ensures a + b + c + d + e + f == a + b + (c + d) + e + f
    ensures a + b + c + d + e + f == a + (b + c + d) + e + f
  {
  }

  // ---------- the splice, for any marker pair ----------

  lemma SpliceKeepsOutside(block: string, existing: string, opener: string, closer: string, i: nat, j: nat)
    requires MarkerPair(opener, closer)
    requires OccursAt(existing, opener, i) && forall k :: 0 <= k < i ==> !OccursAt(existing, opener, k)
    requires OccursAt(existing, closer, j) && forall k :: j < k ==> !OccursAt(existing, closer, k)
    ensures Splice(block, existing, opener, closer)
      == existing[..i] + opener + "\n" + block + closer + existing[j + |closer|..]
  {
    assert Find(existing, opener, 0) == Some(i);
    SplitTailAfterLast(existing, closer, j);
  }

  /** The splice, given the first opening marker and the last closing marker. */
  lemma SpliceSplit(block: string, s: string, a: string, rest: string, pre: string, b: string, opener: string, closer: string)
    requires MarkerPair(opener, closer)
    requires !Contains(a, opener) && !Contains(b, closer)
    requires s == a + opener + rest && s == pre + closer + b
    ensures Splice(block, s, opener, closer) == a + opener + "\n" + block + closer + b
  {
    FirstOccurrence(a, opener, rest);
    LastOccurrence(pre, closer, b);
  }

  lemma SpliceReplacesBlock(block: string, a: string, inner: string, b: string, opener: string, closer: string)
    requires MarkerPair(opener, closer)
    requires !Contains(a, opener) && !Contains(b, closer)
    ensures Splice(block, a + opener + inner + closer + b, opener, closer) == a + opener + "\n" + block + closer + b
  {
    var s := a + opener + inner + closer + b;
    assert s == a + opener + (inner + closer + b);
    assert s == (a + opener + inner) + closer + b;
    SpliceSplit(block, s, a, inner + closer + b, a + opener + inner, b, opener, closer);
  }

  lemma SpliceMarked(block: string, existing: string, opener: string, closer: string)
    requires MarkerPair(opener, closer)
    requires Contains(existing, opener) && Contains(existing, closer)
    ensures Splice(block, Splice(block, existing, opener, closer), opener, closer)
      == Splice(block, existing, opener, closer)
  {
    var a := SplitHead(existing, opener);
    var b := SplitTail(existing, closer);
    Regroup(a, opener, "\n", block, closer, b);
    SpliceReplacesBlock(block, a, "\n" + block, b, opener, closer);
  }

  /** Without an opening marker in the existing text, the text kept in front
      of an appended block holds none either. */
  lemma BaseHasNoOpener(existing: string, opener: string)
    requires |opener| > 0 && '\n' !in opener && !Contains(existing, opener)
    ensures !Contains(AppendBase(existing), opener)
  {
    if !IsBlank(existing) {
      NoOccurrencePrefix(existing, |RStrip(existing)|, opener);
      assert RStrip(existing) == existing[..|RStrip(existing)|];
      NoOccurrenceNewlines(RStrip(existing), opener);
    } else {
      assert !OccursAt("", opener, 0);
    }
  }

  lemma SpliceUnmarked(block: string, existing: string, opener: string, closer: string)
    requires MarkerPair(opener, closer)
    requires !Contains(existing, opener)
    ensures Splice(block, Splice(block, existing, opener, closer), opener, closer)
      == Splice(block, existing, opener, closer)
  {
    var base := AppendBase(existing);
    BaseHasNoOpener(existing, opener);
    NewlineHoldsNo(closer);
    Regroup(base, opener, "\n", block, closer, "\n");
    SpliceReplacesBlock(block, base, "\n" + block, "\n", opener, closer);
  }

  /** Right-trimming keeps the first opening marker whole, because the marker
      ends in a visible character. */
  lemma KeptOpener(existing: string, opener: string)
    requires |opener| > 0 && !IsSpace(opener[|opener| - 1]) && Contains(existing, opener)
    ensures |SplitHead(existing, opener)| + |opener| <= |RStrip(existing)|
    ensures RStrip(existing)
      == SplitHead(existing, opener) + opener + RStrip(existing)[|SplitHead(existing, opener)| + |opener|..]
  {
    var a := SplitHead(existing, opener);
    var kept := RStrip(existing);
    var n := |a| + |opener|;
    assert existing[n - 1] == opener[|opener| - 1];
    assert n <= |kept|;
    assert kept == existing[..|kept|];
    assert kept[..|a|] == a;
    assert kept[|a|..n] == opener;
    assert kept == kept[..|a|] + kept[|a|..n] + kept[n..];
  }

  lemma SpliceAppends(block: string, existing: string, opener: string, closer: string)
    requires |opener| > 0 && |closer| > 0
    requires !Contains(existing, opener) || !Contains(existing, closer)
    ensures Splice(block, existing, opener, closer) == AppendBase(existing) + opener + "\n" + block + closer + "\n"
  {
  }

  lemma RegroupStray(kept: string, a: string, opener: string, t: string, block: string, closer: string)
    requires kept == a + opener + t
    ensures kept + "\n\n" + opener + "\n" + block + closer + "\n"
      == a + opener + (t + "\n\n" + opener + "\n" + block) + closer + "\n"
  {
  }

  lemma SpliceStrayOpener(block: string, existing: string, opener: string, closer: string)
    requires MarkerPair(opener, closer)
    requires Contains(existing, opener) && !Contains(existing, closer)
    ensures Splice(block, Splice(block, existing, opener, closer), opener, closer)
      != Splice(block, existing, opener, closer)
  {
    var a := SplitHead(existing, opener);
    var kept := RStrip(existing);
    KeptOpener(existing, opener);
    var t := kept[|a| + |opener|..];
    assert !IsBlank(existing);
    SpliceAppends(block, existing, opener, closer);
    var r := Splice(block, existing, opener, closer);
    assert r == kept + "\n\n" + opener + "\n" + block + closer + "\n";
    RegroupStray(kept, a, opener, t, block, closer);
    var inner := t + "\n\n" + opener + "\n" + block;
    NewlineHoldsNo(closer);
    SpliceReplacesBlock(block, a, inner, "\n", opener, closer);
    assert |a + opener + "\n" + block + closer + "\n"| < |r|;
  }

  lemma SpliceEndBeforeBegin(block: string, u: string, opener: string, closer: string)
    requires MarkerPair(opener, closer)
    requires !Contains(closer + u, opener) && !Contains(u + opener, closer)
    ensures Splice(block, closer + u + opener, opener, closer)
      == closer + u + opener + "\n" + block + closer + u + opener
  {
    var s := closer + u + opener;
    assert s == (closer + u) + opener + "";
    assert s == "" + closer + (u + opener);
    SpliceSplit(block, s, closer + u, "", "", u + opener, opener, closer);
  }

  // ---------- the tool's merge ----------

  /** Both markers present: everything before the first BEGIN and everything
      after the last END is kept; only the text between them is replaced. */
  lemma MergeKeepsOutside(block: string, existing: string, i: nat, j: nat)
    requires OccursAt(existing, BEGIN, i) && forall k :: 0 <= k < i ==> !OccursAt(existing, BEGIN, k)
    requires OccursAt(existing, END, j) && forall k :: j < k ==> !OccursAt(existing, END, k)
    ensures MergeWithExisting(block, existing)
      == existing[..i] + BEGIN + "\n" + block + END + existing[j + |END|..]
  {
    MarkersArePair();
    SpliceKeepsOutside(block, existing, BEGIN, END, i, j);
  }

  /** A managed block with user text around it: the user text survives and
      the text between the markers is replaced by the new block. */
  lemma MergeReplacesBlock(block: string, a: string, inner: string, b: string)
    requires !Contains(a, BEGIN) && !Contains(b, END)
    ensures MergeWithExisting(block, a + BEGIN + inner + END + b) == a + BEGIN + "\n" + block + END + b
  {
    MarkersArePair();
    SpliceReplacesBlock(block, a, inner, b, BEGIN, END);
  }

  /** The spelled-out instance: `"A" + BEGIN + "\nold\n" + END + "B"`. */
  lemma MergeReplacesOld(block: string)
    ensures MergeWithExisting(block, "A" + BEGIN + "\nold\n" + END + "B") == "A" + BEGIN + "\n" + block + END + "B"
  {
    assert !OccursAt("A", BEGIN, 0);
    assert !OccursAt("B", END, 0);
    MergeReplacesBlock(block, "A", "\nold\n", "B");
  }

  /** A marker missing: the existing text, right-trimmed and followed by a
      blank line (nothing at all when it is blank), then the block between
      both markers and a final newline. */
  lemma MergeAppends(block: string, existing: string)
    requires !Contains(existing, BEGIN) || !Contains(existing, END)
    ensures MergeWithExisting(block, existing) == AppendBase(existing) + BEGIN + "\n" + block + END + "\n"
    ensures IsBlank(existing) ==> AppendBase(existing) == ""
    ensures !IsBlank(existing) ==> AppendBase(existing) == RStrip(existing) + "\n\n"
  {
  }

  /** Merging the same block twice changes nothing, unless the original text
      held a BEGIN marker without any END marker. */
  lemma MergeIdempotent(block: string, existing: string)
    requires Contains(existing, BEGIN) ==> Contains(existing, END)
    ensures MergeWithExisting(block, MergeWithExisting(block, existing)) == MergeWithExisting(block, existing)
  {
    MarkersArePair();
    if Contains(existing, BEGIN) {
      SpliceMarked(block, existing, BEGIN, END);
    } else {
      SpliceUnmarked(block, existing, BEGIN, END);
    }
  }

  /** The exception is real: whenever the text holds a BEGIN marker but no
      END marker, the first merge appends a fresh block after the stray
      BEGIN, and the second merge cuts at the stray BEGIN, dropping the
      text between it and the fresh block. */
  lemma StrayBeginBreaksIdempotence(block: string, existing: string)
    requires Contains(existing, BEGIN) && !Contains(existing, END)
    ensures MergeWithExisting(block, MergeWithExisting(block, existing)) != MergeWithExisting(block, existing)
  {
    MarkersArePair();
    SpliceStrayOpener(block, existing, BEGIN, END);
  }

  /** Idempotence, both directions: merging twice equals merging once exactly
      when the existing text does not hold a BEGIN marker without an END
      marker. */
  lemma MergeIdempotentIff(block: string, existing: string)
    ensures MergeWithExisting(block, MergeWithExisting(block, existing)) == MergeWithExisting(block, existing)
      <==> (Contains(existing, BEGIN) ==> Contains(existing, END))
  {
    if Contains(existing, BEGIN) && !Contains(existing, END) {
      StrayBeginBreaksIdempotence(block, existing);
    } else {
      MergeIdempotent(block, existing);
    }
  }

  /** Text outside the markers is not always kept once: when END comes
      before BEGIN, the text between them ends up both before and after
      the new block. */
  lemma EndBeforeBeginDuplicates(block: string)
    ensures MergeWithExisting(block, END + "u" + BEGIN)
      == END + "u" + BEGIN + "\n" + block + END + "u" + BEGIN
  {
    MarkersArePair();
    assert !OccursAt(END + "u", BEGIN, 0);
    NoOccurrenceCons('u', BEGIN, END);
    assert "u" + BEGIN == ['u'] + BEGIN;
    SpliceEndBeforeBegin(block, "u", BEGIN, END);
  }
}

=== FILE: risks.dfy ===
/**
 The risk scanner: flags tracked paths that look like secrets (a listed
 file name, or a path ending in one, ignoring case) or binaries (a path
 ending in a listed extension, ignoring case). A path can be flagged under
 both kinds; the secret finding then comes first.
 */
module Risks {
  import opened Text

  datatype Kind = Secret | Binary

  /** One `(kind, path)` pair of the scanner's output; `Secret` and `Binary`
      stand for the labels `"secret"` and `"binary"`. */
  datatype Finding = Finding(kind: Kind, path: string)

  /** The hint table: secret file names and binary extensions. */
  datatype Hints = Hints(secrets: seq<string>, binaryExts: seq<string>)

  const RISKY_HINTS: Hints := Hints(
    [".env", ".env.local", ".env.production", "id_rsa", "id_dsa",
     "credentials.json", "serviceAccountKey.json"],
    [".exe", ".dll", ".so", ".dylib", ".bin", ".o", ".a", ".lib",
     ".zip", ".tar", ".gz", ".7z", ".rar", ".pdf"])

  /** The binary extensions are written in lower case, so testing them
      against the lower-cased path is a case-insensitive suffix test. */
  lemma BinaryExtsLowerCase()
    ensures forall i :: 0 <= i < |RISKY_HINTS.binaryExts| ==> NoUpper(RISKY_HINTS.binaryExts[i])
  {
    var e := RISKY_HINTS.binaryExts;
    assert NoUpper(e[0]);
    assert NoUpper(e[1]);
    assert NoUpper(e[2]);
    assert NoUpper(e[3]);
    assert NoUpper(e[4]);
    assert NoUpper(e[5]);
    assert NoUpper(e[6]);
    assert NoUpper(e[7]);
    assert NoUpper(e[8]);
    assert NoUpper(e[9]);
    assert NoUpper(e[10]);
    assert NoUpper(e[11]);
    assert NoUpper(e[12]);
    assert NoUpper(e[13]);
  }

  /** With the tool's hints, a path is a binary exactly when, ignoring case,
      it ends with a listed extension. */
  lemma BinaryIgnoresCase(f: string)
    ensures IsBinary(RISKY_HINTS, f) <==>
      exists i :: 0 <= i < |RISKY_HINTS.binaryExts| && EndsWith(Lower(f), Lower(RISKY_HINTS.binaryExts[i]))
  {
    BinaryExtsLowerCase();
    forall i | 0 <= i < |RISKY_HINTS.binaryExts|
      ensures Lower(RISKY_HINTS.binaryExts[i]) == RISKY_HINTS.binaryExts[i]
    {
      LowerKeeps(RISKY_HINTS.binaryExts[i]);
    }
  }

  /** The per-name secret test: the base name is the listed name, or the
      lower-cased path ends with the lower-cased name. */
  predicate SecretMatch(f: string, s: string) {
    Basename(f) == s || EndsWith(Lower(f), Lower(s))
  }

  predicate IsSecret(h: Hints, f: string) {
    exists i :: 0 <= i < |h.secrets| && SecretMatch(f, h.secrets[i])
  }

  predicate IsBinary(h: Hints, f: string) {
    exists i :: 0 <= i < |h.binaryExts| && EndsWith(Lower(f), h.binaryExts[i])
  }

  /** The two independent tests for one path. */
  datatype Verdict = Verdict(secret: bool, binary: bool)

  function Classify(h: Hints, f: string): Verdict {
    Verdict(IsSecret(h, f), IsBinary(h, f))
  }

  function Classifier(h: Hints): string -> Verdict {
    f => Classify(h, f)
  }

  /** The findings for one path, in the order the scanner appends them. */
  function FindingsOf(f: string, v: Verdict): (r: seq<Finding>)
    ensures |r| <= 2
  {
    (if v.secret then [Finding(Secret, f)] else [])
    + (if v.binary then [Finding(Binary, f)] else [])
  }

  /** At most two findings per path, both about that path, one per test that
      holds, the secret finding before the binary one. */
  lemma FindingsOfShape(f: string, v: Verdict)
    ensures forall x :: x in FindingsOf(f, v) ==> x.path == f
    ensures Finding(Secret, f) in FindingsOf(f, v) <==> v.secret
    ensures Finding(Binary, f) in FindingsOf(f, v) <==> v.binary
    ensures |FindingsOf(f, v)| == 2 ==> FindingsOf(f, v)[0].kind == Secret && FindingsOf(f, v)[1].kind == Binary
  {
  }

  /** The scan for any verdict: the findings of each path in turn. */
  function ScanBy(verdict: string -> Verdict, tracked: seq<string>): (r: seq<Finding>)
    ensures |r| <= 2 * |tracked|
  {
    if |tracked| == 0 then []
    else ScanBy(verdict, tracked[..|tracked| - 1]) + FindingsOf(tracked[|tracked| - 1], verdict(tracked[|tracked| - 1]))
  }

  /** `scan_risks(tracked)`, as a function. */
  function Scan(h: Hints, tracked: seq<string>): (r: seq<Finding>)
    ensures |r| <= 2 * |tracked|
  {
    ScanBy(Classifier(h), tracked)
  }

  /** A finding names a scanned path, and a path is flagged under a kind
      exactly when it is scanned and the verdict says so. */
  lemma {:induction false} ScanByMembers(verdict: string -> Verdict, tracked: seq<string>)
    ensures forall x :: x in ScanBy(verdict, tracked) ==> x.path in tracked
    ensures forall f :: Finding(Secret, f) in ScanBy(verdict, tracked) <==> f in tracked && verdict(f).secret
    ensures forall f :: Finding(Binary, f) in ScanBy(verdict, tracked) <==> f in tracked && verdict(f).binary
  {
    if |tracked| > 0 {
      var init := tracked[..|tracked| - 1];
      var last := tracked[|tracked| - 1];
      assert tracked == init + [last];
      ScanByMembers(verdict, init);
      FindingsOfShape(last, verdict(last));
      assert ScanBy(verdict, tracked) == ScanBy(verdict, init) + FindingsOf(last, verdict(last));
    }
  }

  lemma ScanMembers(h: Hints, tracked: seq<string>)
    ensures |Scan(h, tracked)| <= 2 * |tracked|
    ensures forall x :: x in Scan(h, tracked) ==> x.path in tracked
    ensures forall f :: Finding(Secret, f) in Scan(h, tracked) <==> f in tracked && IsSecret(h, f)
    ensures forall f :: Finding(Binary, f) in Scan(h, tracked) <==> f in tracked && IsBinary(h, f)
  {
    ScanByMembers(Classifier(h), tracked);
  }

  /** The scanner's loop for any verdict: each path in turn, the secret
      finding first, then the binary one. */
  method ScanLoop(verdict: string -> Verdict, tracked: seq<string>) returns (risky: seq<Finding>)
    ensures risky == ScanBy(verdict, tracked)
  {
    risky := [];
    var i := 0;
    while i < |tracked|
      invariant 0 <= i <= |tracked|
      invariant risky == ScanBy(verdict, tracked[..i])
    {
      var f := tracked[i];
      var v := verdict(f);
      assert tracked[..i + 1] == tracked[..i] + [f];
      ScanByStep(verdict, tracked[..i], f);
      if v.secret {
        risky := risky + [Finding(Secret, f)];
      }
      if v.binary {
        risky := risky + [Finding(Binary, f)];
      }
      i := i + 1;
    }
    assert tracked[..i] == tracked;
  }

  /** `scan_risks(tracked)`, as the source's loop over the tool's tests. */
  method ScanRisks(h: Hints, tracked: seq<string>) returns (risky: seq<Finding>)
    ensures risky == Scan(h, tracked)
    ensures forall f :: Finding(Secret, f) in risky <==> f in tracked && IsSecret(h, f)
    ensures forall f :: Finding(Binary, f) in risky <==> f in tracked && IsBinary(h, f)
  {
    risky := ScanLoop(Classifier(h), tracked);
    ScanMembers(h, tracked);
  }

  /** The scan keeps input order: scanning two lists one after the other is
      scanning their concatenation. */
  lemma {:induction false} ScanByAppend(verdict: string -> Verdict, a: seq<string>, b: seq<string>)
    ensures ScanBy(verdict, a + b) == ScanBy(verdict, a) + ScanBy(verdict, b)
    decreases |b|
  {
    if |b| == 0 {
      assert a + b == a;
    } else {
      var init := b[..|b| - 1];
      var last := b[|b| - 1];
      var ab := a + b;
      assert ab == (a + init) + [last];
      ScanByStep(verdict, a + init, last);
      ScanByStep(verdict, init, last);
      ScanByAppend(verdict, a, init);
    }
  }

  lemma ScanByStep(verdict: string -> Verdict, init: seq<string>, last: string)
    ensures ScanBy(verdict, init + [last]) == ScanBy(verdict, init) + FindingsOf(last, verdict(last))
  {
    assert (init + [last])[..|init|] == init;
  }

  lemma ScanAppend(h: Hints, a: seq<string>, b: seq<string>)
    ensures Scan(h, a + b) == Scan(h, a) + Scan(h, b)
  {
    ScanByAppend(Classifier(h), a, b);
  }

  /** Each path contributes exactly its own findings, at its place: the
      secret finding first, then the binary one. */
  lemma ScanCons(h: Hints, f: string, rest: seq<string>)
    ensures Scan(h, [f] + rest) == FindingsOf(f, Classify(h, f)) + Scan(h, rest)
  {
    ScanAppend(h, [f], rest);
    ScanOne(h, f);
  }

  /** The base-name test never decides anything: a path whose base name is a
      listed name also ends with it, so the suffix test alone gives the same
      verdict. */
  lemma BasenameTestRedundant(f: string, s: string)
    ensures SecretMatch(f, s) <==> EndsWith(Lower(f), Lower(s))
  {
    if Basename(f) == s {
      EndsWithLower(f, s);
    }
  }

  lemma SecretIffSuffix(h: Hints, f: string)
    ensures IsSecret(h, f) <==> exists i :: 0 <= i < |h.secrets| && EndsWith(Lower(f), Lower(h.secrets[i]))
  {
    forall i | 0 <= i < |h.secrets|
      ensures SecretMatch(f, h.secrets[i]) <==> EndsWith(Lower(f), Lower(h.secrets[i]))
    {
      BasenameTestRedundant(f, h.secrets[i]);
    }
  }

  /** The base name of `dir/name` is `name`. */
  lemma {:induction false} BasenameOfJoin(dir: string, name: string)
    requires '/' !in name
    ensures Basename(dir + "/" + name) == name
    decreases |name|
  {
    var p := dir + "/" + name;
    if |name| > 0 {
      var init := name[..|name| - 1];
      assert name == init + [name[|name| - 1]];
      assert p[..|p| - 1] == dir + "/" + init;
      BasenameOfJoin(dir, init);
    }
  }

  /** The base name of a path without slashes is the path itself. */
  lemma BasenameNoSlash(f: string)
    requires '/' !in f
    ensures Basename(f) == f
  {
  }

  /** The last character of a non-empty base name is the path's last one. */
  lemma BasenameLast(f: string)
    requires |f| > 0 && f[|f| - 1] != '/'
    ensures |Basename(f)| > 0 && Basename(f)[|Basename(f)| - 1] == f[|f| - 1]
  {
  }

  /** A path is no secret when no listed name ends in its last character,
      ignoring case. */
  lemma NotSecretByLastChar(h: Hints, f: string)
    requires |f| > 0 && f[|f| - 1] != '/'
    requires forall i :: 0 <= i < |h.secrets| ==>
      |h.secrets[i]| > 0 && LowerChar(h.secrets[i][|h.secrets[i]| - 1]) != LowerChar(f[|f| - 1])
    ensures !IsSecret(h, f)
  {
    var low := Lower(f);
    BasenameLast(f);
    forall i | 0 <= i < |h.secrets|
      ensures !SecretMatch(f, h.secrets[i])
    {
      var s := h.secrets[i];
      assert Lower(s)[|s| - 1] == LowerChar(s[|s| - 1]);
      assert low[|low| - 1] == LowerChar(f[|f| - 1]);
      LastCharsDiffer(low, Lower(s));
    }
  }

  /** A path is no binary when no listed extension ends in its last
      character, lower-cased. */
  lemma NotBinaryByLastChar(h: Hints, f: string)
    requires |f| > 0
    requires forall i :: 0 <= i < |h.binaryExts| ==>
      |h.binaryExts[i]| > 0 && h.binaryExts[i][|h.binaryExts[i]| - 1] != LowerChar(f[|f| - 1])
    ensures !IsBinary(h, f)
  {
    var low := Lower(f);
    assert low[|low| - 1] == LowerChar(f[|f| - 1]);
    forall i | 0 <= i < |h.binaryExts|
      ensures !EndsWith(low, h.binaryExts[i])
    {
      LastCharsDiffer(low, h.binaryExts[i]);
    }
  }

  /** Any `.env` file is flagged as a secret and not as a binary. */
  lemma EnvFileVerdict(dir: string)
    ensures Classify(RISKY_HINTS, dir + "/.env") == Verdict(true, false)
  {
    EnvFileIsSecret(dir);
    EnvFileIsNoBinary(dir);
  }

  lemma EnvFileIsNoBinary(dir: string)
    ensures !IsBinary(RISKY_HINTS, dir + "/.env")
  {
    var f := dir + "/.env";
    assert f[|f| - 1] == 'v';
    NotBinaryByLastChar(RISKY_HINTS, f);
  }

  lemma EnvFileIsSecret(dir: string)
    ensures IsSecret(RISKY_HINTS, dir + "/.env")
  {
    assert dir + "/.env" == dir + "/" + ".env";
    BasenameOfJoin(dir, ".env");
    assert Basename(dir + "/.env") == RISKY_HINTS.secrets[0];
  }

  /** Any path ending in `.exe`, in any mix of cases, is flagged as a binary
      and not as a secret. */
  lemma ExeFileVerdict(stem: string, ext: string)
    requires Lower(ext) == ".exe"
    ensures Classify(RISKY_HINTS, stem + ext) == Verdict(false, true)
  {
    ExeSuffix(stem, ext);
    NotSecretEndingInE(stem + ext);
    assert EndsWith(Lower(stem + ext), RISKY_HINTS.binaryExts[0]);
  }

  lemma ExeSuffix(stem: string, ext: string)
    requires Lower(ext) == ".exe"
    ensures EndsWith(Lower(stem + ext), ".exe")
    ensures LowerChar((stem + ext)[|stem + ext| - 1]) == 'e'
  {
    var f := stem + ext;
    assert f[|stem|..] == ext;
    EndsWithLower(f, ext);
    assert f[|f| - 1] == ext[3];
  }

  /** No listed secret name ends in `e` in any case. */
  lemma NotSecretEndingInE(f: string)
    requires |f| > 0 && LowerChar(f[|f| - 1]) == 'e'
    ensures !IsSecret(RISKY_HINTS, f)
  {
    NotSecretByLastChar(RISKY_HINTS, f);
  }

  /** Scanning one path yields that path's findings. */
  lemma ScanOne(h: Hints, f: string)
    ensures Scan(h, [f]) == FindingsOf(f, Classify(h, f))
  {
    ScanByStep(Classifier(h), [], f);
  }

  /** `secrets/.env` is reported as a secret and nothing else. */
  lemma DotEnvIsSecret()
    ensures Scan(RISKY_HINTS, ["secrets/.env"]) == [Finding(Secret, "secrets/.env")]
  {
    EnvFileScan("secrets");
    assert "secrets" + "/.env" == "secrets/.env";
  }

  lemma EnvFileScan(dir: string)
    ensures Scan(RISKY_HINTS, [dir + "/.env"]) == [Finding(Secret, dir + "/.env")]
  {
    EnvFileVerdict(dir);
    ScanOne(RISKY_HINTS, dir + "/.env");
  }

  /** `release/app.exe` is reported as a binary and nothing else. */
  lemma AppExeIsBinary()
    ensures Scan(RISKY_HINTS, ["release/app.exe"]) == [Finding(Binary, "release/app.exe")]
  {
    ExeIsLower();
    ExeFileScan("release/app", ".exe");
    assert "release/app" + ".exe" == "release/app.exe";
  }

  lemma ExeIsLower()
    ensures Lower(".exe") == ".exe"
  {
    LowerKeeps(".exe");
  }

  lemma ExeFileScan(stem: string, ext: string)
    requires Lower(ext) == ".exe"
    ensures Scan(RISKY_HINTS, [stem + ext]) == [Finding(Binary, stem + ext)]
  {
    ExeFileVerdict(stem, ext);
    ScanOne(RISKY_HINTS, stem + ext);
  }

  /** A tracked private key named `id_rsa` is reported as a secret. */
  lemma IdRsaIsSecret()
    ensures Finding(Secret, "id_rsa") in Scan(RISKY_HINTS, ["id_rsa"])
  {
    IdRsaMatches();
    ScanOne(RISKY_HINTS, "id_rsa");
    FindingsOfShape("id_rsa", Classify(RISKY_HINTS, "id_rsa"));
  }

  lemma IdRsaMatches()
    ensures IsSecret(RISKY_HINTS, "id_rsa")
  {
    assert RISKY_HINTS.secrets[3] == "id_rsa";
    BasenameNoSlash("id_rsa");
    assert SecretMatch("id_rsa", RISKY_HINTS.secrets[3]);
  }
}

=== FILE: templates.dfy ===
/**
 The template registry: for every known stack name, a display title and the
 ordered ignore rules the generator emits for it. The table is a constant;
 the closed set of names it knows is the datatype `Stack`.
 */
module Templates {
  import opened Text

  datatype Stack = Node | Python | Go | Rust | Java | CSharp | Swift | Docker | Editors | Os

  datatype Template = Template(title: string, rules: seq<string>)

  /** The key under which a stack appears in the table (and on the command line). */
  function Name(s: Stack): string {
    match s
    case Node => "node"
    case Python => "python"
    case Go => "go"
    case Rust => "rust"
    case Java => "java"
    case CSharp => "csharp"
    case Swift => "swift"
    case Docker => "docker"
    case Editors => "editors"
    case Os => "os"
  }

  /** The stack whose key is exactly `name`, if the table has one. */
  function Parse(name: string): (r: Option<Stack>)
    ensures r.Some? ==> Name(r.value) == name
  {
    if name == "node" then Some(Node)
    else if name == "python" then Some(Python)
    else if name == "go" then Some(Go)
    else if name == "rust" then Some(Rust)
    else if name == "java" then Some(Java)
    else if name == "csharp" then Some(CSharp)
    else if name == "swift" then Some(Swift)
    else if name == "docker" then Some(Docker)
    else if name == "editors" then Some(Editors)
    else if name == "os" then Some(Os)
    else None
  }

  /** Every key is found again: `Parse` and `Name` are inverse, so the table
      lookup is an exact-match dictionary lookup over the ten keys. */
  lemma ParseName(s: Stack)
    ensures Parse(Name(s)) == Some(s)
  {
  }

  /** The shape of every rule in the table: one non-empty line that does not
      start with `#` and does not end in whitespace, so a rule line never
      reads as a header or a blank line and survives `rstrip` whole. */
  predicate RuleText(r: string) {
    |r| > 0 && r[0] != '#' && '\n' !in r && !IsSpace(r[|r| - 1])
  }

  /** The shape of every title: one line ending in a non-blank character. */
  predicate TitleText(t: string) {
    |t| > 0 && '\n' !in t && !IsSpace(t[|t| - 1])
  }

  /** A template whose title and rules all have the expected shape. */
  predicate WellFormed(t: Template) {
    TitleText(t.title) && forall i :: 0 <= i < |t.rules| ==> RuleText(t.rules[i])
  }

  /** The constant table, entry by entry. */
  function TemplateOf(s: Stack): Template {
    match s
    case Node => Template("Node (build artifacts)", NODE_RULES)
    case Python => Template("Python (bytecode & venv)", PYTHON_RULES)
    case Go => Template("Go (build & modules)", GO_RULES)
    case Rust => Template("Rust (cargo target)", RUST_RULES)
    case Java => Template("Java (build output)", JAVA_RULES)
    case CSharp => Template("C# (.NET build)", CSHARP_RULES)
    case Swift => Template("Swift / Xcode", SWIFT_RULES)
    case Docker => Template("Docker", DOCKER_RULES)
    case Editors => Template("Editors / IDEs", EDITORS_RULES)
    case Os => Template("OS cruft (macOS/Windows/Linux)", OS_RULES)
  }

  const NODE_RULES: seq<string> := [
    "node_modules/", "npm-debug.log*", "yarn-debug.log*", "yarn-error.log*",
    "pnpm-debug.log*", "dist/", "build/", ".next/", ".nuxt/", ".svelte-kit/",
    ".cache/", "*.tgz"]
  const PYTHON_RULES: seq<string> := [
    "__pycache__/", "*.py[cod]", "*$py.class", ".venv/", "venv/", "env/",
    "*.egg-info/", ".pytest_cache/", ".mypy_cache/", ".ruff_cache/"]
  const GO_RULES: seq<string> := ["bin/", "*.exe", "*.test", "vendor/"]
  const RUST_RULES: seq<string> := ["target/", "**/*.rs.bk"]
  const JAVA_RULES: seq<string> := [
    "target/", "out/", "build/", "*.class", "*.jar", "*.war", ".gradle/", ".idea/"]
  const CSHARP_RULES: seq<string> := ["bin/", "obj/", "*.user", "*.suo", ".vs/"]
  const SWIFT_RULES: seq<string> := [
    "DerivedData/", "*.xcworkspace/xcuserdata/", "*.xcuserdata/", "Pods/", ".build/"]
  const DOCKER_RULES: seq<string> := [".docker/", "**/.env.local"]
  const EDITORS_RULES: seq<string> := [".vscode/", ".idea/", "*.iml"]
  const OS_RULES: seq<string> := [".DS_Store", "Thumbs.db", "Desktop.ini", "$RECYCLE.BIN/"]

  /** `TEMPLATES.get(name)`: the template stored under `name`, if any. */
  function Lookup(name: string): (r: Option<Template>)
    ensures r.Some? <==> exists s :: Name(s) == name
    ensures forall s :: Name(s) == name ==> r == Some(TemplateOf(s))
  {
    match Parse(name)
    case None => None
    case Some(s) => Some(TemplateOf(s))
  }

  /** `name` is a key of the table. */
  predicate Known(name: string) {
    Lookup(name).Some?
  }

  /** What the generator relies on in every template: a first rule exists and
      it starts with a visible character, so emitting it never yields a
      blank line. */
  predicate LeadsWithVisibleRule(t: Template) {
    |t.rules| > 0 && |t.rules[0]| > 0 && Visible(t.rules[0][0])
  }

  /** A printable, non-blank ASCII character. */
  predicate Visible(c: char) {
    '!' <= c <= '~'
  }

  lemma VisibleIsNotSpace(c: char)
    requires Visible(c)
    ensures !IsSpace(c)
  {
  }

  lemma TemplatesLeadWithVisibleRule(s: Stack)
    ensures LeadsWithVisibleRule(TemplateOf(s))
  {
  }

  /** Every template of the table has the expected shape. */
  lemma TemplatesWellFormed(s: Stack)
    ensures WellFormed(TemplateOf(s))
  {
    TitlesWellFormed(s);
    match s
    case Node => NodeRules();
    case Python => PythonRules();
    case Go => GoRules();
    case Rust => RustRules();
    case Java => JavaRules();
    case CSharp => CSharpRules();
    case Swift => SwiftRules();
    case Docker => DockerRules();
    case Editors => EditorsRules();
    case Os => OsRules();
  }

  /** Every title is one line ending in a visible character. */
  lemma TitlesWellFormed(s: Stack)
    ensures TitleText(TemplateOf(s).title)
  {
    match s
    case Node | Python | Go | Rust | Java => LanguageTitles(s);
    case CSharp | Swift | Docker | Editors | Os => OtherTitles(s);
  }

  lemma LanguageTitles(s: Stack)
    requires s.Node? || s.Python? || s.Go? || s.Rust? || s.Java?
    ensures TitleText(TemplateOf(s).title)
  {
    match s
    case Node => assert TitleText("Node (build artifacts)");
    case Python => assert TitleText("Python (bytecode & venv)");
    case Go => assert TitleText("Go (build & modules)");
    case Rust => assert TitleText("Rust (cargo target)");
    case Java => assert TitleText("Java (build output)");
  }

  lemma OtherTitles(s: Stack)
    requires s.CSharp? || s.Swift? || s.Docker? || s.Editors? || s.Os?
    ensures TitleText(TemplateOf(s).title)
  {
    match s
    case CSharp => assert TitleText("C# (.NET build)");
    case Swift => assert TitleText("Swift / Xcode");
    case Docker => assert TitleText("Docker");
    case Editors => assert TitleText("Editors / IDEs");
    case Os => assert TitleText("OS cruft (macOS/Windows/Linux)");
  }

  lemma NodeRules()
    ensures forall i :: 0 <= i < |NODE_RULES| ==> RuleText(NODE_RULES[i])
  {
    assert RuleText(NODE_RULES[0]);
    assert RuleText(NODE_RULES[1]);
    assert RuleText(NODE_RULES[2]);
    assert RuleText(NODE_RULES[3]);
    assert RuleText(NODE_RULES[4]);
    assert RuleText(NODE_RULES[5]);
    assert RuleText(NODE_RULES[6]);
    assert RuleText(NODE_RULES[7]);
    assert RuleText(NODE_RULES[8]);
    assert RuleText(NODE_RULES[9]);
    assert RuleText(NODE_RULES[10]);
    assert RuleText(NODE_RULES[11]);
  }

  lemma PythonRules()
    ensures forall i :: 0 <= i < |PYTHON_RULES| ==> RuleText(PYTHON_RULES[i])
  {
    assert RuleText(PYTHON_RULES[0]);
    assert RuleText(PYTHON_RULES[1]);
    assert RuleText(PYTHON_RULES[2]);
    assert RuleText(PYTHON_RULES[3]);
    assert RuleText(PYTHON_RULES[4]);
    assert RuleText(PYTHON_RULES[5]);
    assert RuleText(PYTHON_RULES[6]);
    assert RuleText(PYTHON_RULES[7]);
    assert RuleText(PYTHON_RULES[8]);
    assert RuleText(PYTHON_RULES[9]);
  }

  lemma GoRules()
    ensures forall i :: 0 <= i < |GO_RULES| ==> RuleText(GO_RULES[i])
  {
    assert RuleText(GO_RULES[0]);
    assert RuleText(GO_RULES[1]);
    assert RuleText(GO_RULES[2]);
    assert RuleText(GO_RULES[3]);
  }

  lemma RustRules()
    ensures forall i :: 0 <= i < |RUST_RULES| ==> RuleText(RUST_RULES[i])
  {
    assert RuleText(RUST_RULES[0]);
    assert RuleText(RUST_RULES[1]);
  }

  lemma JavaRules()
    ensures forall i :: 0 <= i < |JAVA_RULES| ==> RuleText(JAVA_RULES[i])
  {
    assert RuleText(JAVA_RULES[0]);
    assert RuleText(JAVA_RULES[1]);
    assert RuleText(JAVA_RULES[2]);
    assert RuleText(JAVA_RULES[3]);
    assert RuleText(JAVA_RULES[4]);
    assert RuleText(JAVA_RULES[5]);
    assert RuleText(JAVA_RULES[6]);
    assert RuleText(JAVA_RULES[7]);
  }

  lemma CSharpRules()
    ensures forall i :: 0 <= i < |CSHARP_RULES| ==> RuleText(CSHARP_RULES[i])
  {
    assert RuleText(CSHARP_RULES[0]);
    assert RuleText(CSHARP_RULES[1]);
    assert RuleText(CSHARP_RULES[2]);
    assert RuleText(CSHARP_RULES[3]);
    assert RuleText(CSHARP_RULES[4]);
  }

  lemma SwiftRules()
    ensures forall i :: 0 <= i < |SWIFT_RULES| ==> RuleText(SWIFT_RULES[i])
  {
    assert RuleText(SWIFT_RULES[0]);
    assert RuleText(SWIFT_RULES[1]);
    assert RuleText(SWIFT_RULES[2]);
    assert RuleText(SWIFT_RULES[3]);
    assert RuleText(SWIFT_RULES[4]);
  }

  lemma DockerRules()
    ensures forall i :: 0 <= i < |DOCKER_RULES| ==> RuleText(DOCKER_RULES[i])
  {
    assert RuleText(DOCKER_RULES[0]);
    assert RuleText(DOCKER_RULES[1]);
  }

  lemma EditorsRules()
    ensures forall i :: 0 <= i < |EDITORS_RULES| ==> RuleText(EDITORS_RULES[i])
  {
    assert RuleText(EDITORS_RULES[0]);
    assert RuleText(EDITORS_RULES[1]);
    assert RuleText(EDITORS_RULES[2]);
  }

  lemma OsRules()
    ensures forall i :: 0 <= i < |OS_RULES| ==> RuleText(OS_RULES[i])
  {
    assert RuleText(OS_RULES[0]);
    assert RuleText(OS_RULES[1]);
    assert RuleText(OS_RULES[2]);
    assert RuleText(OS_RULES[3]);
  }

  /** Rules do repeat across stacks; these are the pairs the generator's
      de-duplication has to handle. */
  lemma SharedRules()
    ensures "target/" in TemplateOf(Rust).rules && "target/" in TemplateOf(Java).rules
    ensures "bin/" in TemplateOf(Go).rules && "bin/" in TemplateOf(CSharp).rules
    ensures "build/" in TemplateOf(Node).rules && "build/" in TemplateOf(Java).rules
    ensures ".idea/" in TemplateOf(Java).rules && ".idea/" in TemplateOf(Editors).rules
  {
  }
}

=== FILE: text.dfy ===
/**
 The Python string primitives the tool relies on, over `string` (a sequence
 of characters): whitespace, `rstrip`, `lower`, `endswith`, `in`,
 `split(m)[0]`, `split(m)[-1]`, `"\n".join` and `os.path.basename`.
 */
module Text {

  datatype Option<T> = None | Some(value: T)

  /** Python's `str.isspace` for one character: exactly the characters that
      `str.strip()` and `str.rstrip()` remove when given no argument. */
  predicate IsSpace(c: char) {
    || c == ' '
    || '\t' <= c <= '\r'
    || '\U{1C}' <= c <= '\U{1F}'
    || c == '\U{85}' || c == '\U{A0}' || c == '\U{1680}'
    || '\U{2000}' <= c <= '\U{200A}'
    || c == '\U{2028}' || c == '\U{2029}' || c == '\U{202F}'
    || c == '\U{205F}' || c == '\U{3000}'
  }

  /** The text holds nothing but whitespace: `not s.strip()`. */
  predicate IsBlank(s: string) {
    forall i :: 0 <= i < |s| ==> IsSpace(s[i])
  }

  /** `s.lstrip()`: the longest suffix of `s` that does not start with
      whitespace. */
  function LStrip(s: string): (r: string)
    ensures |r| <= |s| && r == s[|s| - |r|..]
    ensures |r| == 0 || !IsSpace(r[0])
    ensures forall i :: 0 <= i < |s| - |r| ==> IsSpace(s[i])
  {
    if |s| > 0 && IsSpace(s[0]) then LStrip(s[1..]) else s
  }

  /** `s.strip()`: whitespace removed from both ends. It is empty exactly
      when the text is blank, so `not s.strip()` is `IsBlank(s)`; otherwise
      it starts and ends in a non-whitespace character. */
  function Strip(s: string): (r: string)
    ensures r == [] <==> IsBlank(s)
    ensures |r| > 0 ==> !IsSpace(r[0]) && !IsSpace(r[|r| - 1])
  {
    LStrip(RStrip(s))
  }

  /** `s.rstrip()`: the longest prefix of `s` that does not end in whitespace. */
  function RStrip(s: string): (r: string)
    ensures r <= s
    ensures |r| == 0 || !IsSpace(r[|r| - 1])
    ensures forall i :: |r| <= i < |s| ==> IsSpace(s[i])
    ensures r == [] <==> IsBlank(s)
    decreases |s|
  {
    if |s| > 0 && IsSpace(s[|s| - 1]) then RStrip(s[..|s| - 1]) else s
  }

  /** ASCII lower-casing of one character. */
  function LowerChar(c: char): char {
    if 'A' <= c <= 'Z' then (c as int + 32) as char else c
  }

  /** `s.lower()`, restricted to ASCII letters. */
  function Lower(s: string): (r: string)
    ensures |r| == |s|
    ensures forall i :: 0 <= i < |s| ==> r[i] == LowerChar(s[i])
  {
    if |s| == 0 then [] else [LowerChar(s[0])] + Lower(s[1..])
  }

  /** No ASCII upper-case letter occurs in `s`. */
  predicate NoUpper(s: string) {
    forall i :: 0 <= i < |s| ==> !('A' <= s[i] <= 'Z')
  }

  /** Lower-casing a text without upper-case letters changes nothing. */
  lemma LowerKeeps(s: string)
    requires NoUpper(s)
    ensures Lower(s) == s
  {
  }

  /** `s.endswith(suffix)`. */
  predicate EndsWith(s: string, suffix: string) {
    |suffix| <= |s| && s[|s| - |suffix|..] == suffix
  }

  /** Texts whose last characters differ do not end in one another. */
  lemma LastCharsDiffer(s: string, suffix: string)
    requires |s| > 0 && |suffix| > 0 && s[|s| - 1] != suffix[|suffix| - 1]
    ensures !EndsWith(s, suffix)
  {
    if |suffix| <= |s| {
      assert s[|s| - |suffix|..][|suffix| - 1] == s[|s| - 1];
    }
  }

  /** Lower-casing both sides keeps a suffix a suffix. */
  lemma EndsWithLower(s: string, suffix: string)
    requires EndsWith(s, suffix)
    ensures EndsWith(Lower(s), Lower(suffix))
  {
    var d := |s| - |suffix|;
    forall i | 0 <= i < |suffix|
      ensures Lower(s)[d + i] == Lower(suffix)[i]
    {
      assert s[d + i] == suffix[i];
    }
  }

  /** `m` occurs in `s` starting at index `i`. */
  predicate OccursAt(s: string, m: string, i: int) {
    0 <= i && i + |m| <= |s| && s[i..i + |m|] == m
  }

  /** The substring search behind `m in s` and `s.split(m)`: the least index
      at or after `from` where `m` occurs. */
  function Find(s: string, m: string, from: nat): (r: Option<nat>)
    ensures r.Some? ==> from <= r.value && OccursAt(s, m, r.value)
    ensures forall j :: from <= j && (r.None? || j < r.value) ==> !OccursAt(s, m, j)
    decreases |s| - from
  {
    if from + |m| > |s| then None
    else if s[from..from + |m|] == m then Some(from)
    else Find(s, m, from + 1)
  }

  /** `m in s`. */
  predicate Contains(s: string, m: string) {
    Find(s, m, 0).Some?
  }

  /** An occurrence inside a suffix is an occurrence in the whole text. */
  lemma OccursShift(s: string, m: string, d: int, k: int)
    requires 0 <= d <= |s| && 0 <= k
    ensures OccursAt(s[d..], m, k) <==> OccursAt(s, m, d + k)
  {
    if d + k + |m| <= |s| {
      assert s[d..][k..k + |m|] == s[d + k..d + k + |m|];
    }
  }

  /** An occurrence inside a prefix is an occurrence in the whole text. */
  lemma OccursPrefix(s: string, m: string, n: int, k: int)
    requires 0 <= n <= |s| && k + |m| <= n
    ensures OccursAt(s[..n], m, k) <==> OccursAt(s, m, k)
  {
    if 0 <= k {
      assert s[..n][k..k + |m|] == s[k..k + |m|];
    }
  }

  /** The first character of `m` never recurs inside `m`; then two
      occurrences of `m` can never overlap. Both markers have this shape. */
  predicate StartUnique(m: string) {
    |m| > 0 && forall k :: 0 < k < |m| ==> m[k] != m[0]
  }

  lemma OccurrencesApart(s: string, m: string, i: int, j: int)
    requires StartUnique(m) && OccursAt(s, m, i) && OccursAt(s, m, j) && i < j
    ensures i + |m| <= j
  {
    assert forall t :: i <= t < i + |m| ==> s[t] == s[i..i + |m|][t - i];
    assert s[j] == s[j..j + |m|][0] == m[0];
  }

  /** `s.split(m)[0]`: the text before the first occurrence of `m`, or all of
      `s` when `m` does not occur. */
  function SplitHead(s: string, m: string): (r: string)
    requires |m| > 0
    ensures r <= s
    ensures !Contains(r, m)
    ensures forall k :: 0 <= k < |r| ==> !OccursAt(s, m, k)
    ensures Contains(s, m) <==> OccursAt(s, m, |r|)
    ensures !Contains(s, m) ==> r == s
  {
    match Find(s, m, 0)
    case None => s
    case Some(i) =>
      NothingBeforeFirst(s, m, i);
      s[..i]
  }

  lemma NothingBeforeFirst(s: string, m: string, i: nat)
    requires |m| > 0 && i <= |s| && forall j :: 0 <= j < i ==> !OccursAt(s, m, j)
    ensures !Contains(s[..i], m)
  {
    forall k | 0 <= k && k + |m| <= i
      ensures !OccursAt(s[..i], m, k)
    {
      OccursPrefix(s, m, i, k);
    }
  }

  /** `s.split(m)[-1]`: Python splits greedily from the left, so the last
      piece is what follows the last occurrence that scan stops at. */
  function SplitTail(s: string, m: string): (r: string)
    requires |m| > 0
    ensures |r| <= |s| && r == s[|s| - |r|..]
    ensures !Contains(r, m)
    ensures !Contains(s, m) ==> r == s
  {
    ScanShape(s, m, 0);
    if Find(s, m, 0).None? then
      ScanStop(s, m, 0);
      SplitTailFrom(s, m, 0)
    else
      SplitTailFrom(s, m, 0)
  }

  /** The greedy scan, resumed at index `from`. */
  function SplitTailFrom(s: string, m: string, from: nat): (r: string)
    requires |m| > 0 && from <= |s|
    ensures |r| <= |s| - from
    decreases |s| - from
  {
    match Find(s, m, from)
    case None => s[from..]
    case Some(j) => SplitTailFrom(s, m, j + |m|)
  }

  /** Wherever the scan resumes, its piece is a suffix holding no `m`. */
  lemma {:induction false} ScanShape(s: string, m: string, from: nat)
    requires |m| > 0 && from <= |s|
    ensures SplitTailFrom(s, m, from) == s[|s| - |SplitTailFrom(s, m, from)|..]
    ensures !Contains(SplitTailFrom(s, m, from), m)
    decreases |s| - from
  {
    match Find(s, m, from)
    case None => NothingFrom(s, m, from);
    case Some(j) => ScanShape(s, m, j + |m|);
  }

  /** For a separator whose occurrences cannot overlap, the last piece of the
      greedy split is exactly the text after the last occurrence. */
  lemma SplitTailAfterLast(s: string, m: string, j: int)
    requires StartUnique(m) && OccursAt(s, m, j)
    requires forall k :: j < k ==> !OccursAt(s, m, k)
    ensures SplitTail(s, m) == s[j + |m|..]
  {
    ScanAfterLast(s, m, 0, j);
  }

  lemma {:induction false} ScanAfterLast(s: string, m: string, from: nat, j: int)
    requires StartUnique(m) && OccursAt(s, m, j) && from <= j
    requires forall k :: j < k ==> !OccursAt(s, m, k)
    ensures SplitTailFrom(s, m, from) == s[j + |m|..]
    decreases |s| - from
  {
    FindReaches(s, m, from, j);
    var k := Find(s, m, from).value;
    if k == j {
      ScanStopsAtLast(s, m, from, j);
    } else {
      OccurrencesApart(s, m, k, j);
      ScanStep(s, m, from);
      ScanAfterLast(s, m, k + |m|, j);
    }
  }

  /** The scan's final step, when the occurrence it finds is the last one. */
  lemma ScanStopsAtLast(s: string, m: string, from: nat, j: int)
    requires |m| > 0 && from <= |s| && Find(s, m, from) == Some(j)
    requires forall k :: j < k ==> !OccursAt(s, m, k)
    ensures SplitTailFrom(s, m, from) == s[j + |m|..]
  {
    FindPastLast(s, m, j);
    ScanStep(s, m, from);
    ScanStop(s, m, j + |m|);
  }

  /** A search started before an occurrence finds one, at or before it. */
  lemma FindReaches(s: string, m: string, from: nat, j: int)
    requires OccursAt(s, m, j) && from <= j
    ensures Find(s, m, from).Some? && Find(s, m, from).value <= j
  {
  }

  /** A search started after the last occurrence finds nothing. */
  lemma FindPastLast(s: string, m: string, j: int)
    requires |m| > 0 && OccursAt(s, m, j)
    requires forall k :: j < k ==> !OccursAt(s, m, k)
    ensures Find(s, m, j + |m|).None?
  {
  }

  lemma ScanStop(s: string, m: string, from: nat)
    requires |m| > 0 && from <= |s| && Find(s, m, from).None?
    ensures SplitTailFrom(s, m, from) == s[from..]
  {
  }

  lemma ScanStep(s: string, m: string, from: nat)
    requires |m| > 0 && from <= |s| && Find(s, m, from).Some?
    ensures SplitTailFrom(s, m, from) == SplitTailFrom(s, m, Find(s, m, from).value + |m|)
  {
  }

  /** No occurrence starts at or after `d`, so the suffix from `d` has none. */
  lemma NothingFrom(s: string, m: string, d: int)
    requires 0 <= d <= |s|
    requires forall k :: d <= k ==> !OccursAt(s, m, k)
    ensures !Contains(s[d..], m)
  {
    forall k | 0 <= k
      ensures !OccursAt(s[d..], m, k)
    {
      OccursShift(s, m, d, k);
    }
  }

  /** When `a` holds no `m`, the first `m` in `a + m + rest` is the one right
      after `a`, so `split(m)[0]` gives back `a`. */
  lemma FirstOccurrence(a: string, m: string, rest: string)
    requires StartUnique(m) && !Contains(a, m)
    ensures Find(a + m + rest, m, 0) == Some(|a|)
    ensures SplitHead(a + m + rest, m) == a
  {
    var s := a + m + rest;
    assert s[|a|..|a| + |m|] == m;
    assert OccursAt(s, m, |a|);
    assert s[..|a|] == a;
    forall k | 0 <= k < |a|
      ensures !OccursAt(s, m, k)
    {
      if k + |m| <= |a| {
        OccursPrefix(s, m, |a|, k);
        assert !OccursAt(a, m, k);
      } else {
        assert s[|a|] == m[0] != m[|a| - k];
        if k + |m| <= |s| {
          assert s[k..k + |m|][|a| - k] != m[|a| - k];
        }
      }
    }
  }

  /** When `b` holds no `m`, the last `m` in `pre + m + b` is the one right
      before `b`, so `split(m)[-1]` gives back `b`. */
  lemma LastOccurrence(pre: string, m: string, b: string)
    requires StartUnique(m) && !Contains(b, m)
    ensures Contains(pre + m + b, m)
    ensures SplitTail(pre + m + b, m) == b
  {
    var s := pre + m + b;
    var j := |pre|;
    assert s[j..j + |m|] == m;
    assert s[j + |m|..] == b;
    forall k | j < k
      ensures !OccursAt(s, m, k)
    {
      if k >= j + |m| {
        OccursShift(s, m, j + |m|, k - j - |m|);
        assert !OccursAt(b, m, k - j - |m|);
      } else {
        assert s[k] == s[j..j + |m|][k - j] == m[k - j] != m[0];
        if k + |m| <= |s| {
          assert s[k..k + |m|][0] != m[0];
        }
      }
    }
    SplitTailAfterLast(s, m, j);
  }

  /** A prefix of a text without `m` has no `m` either. */
  lemma NoOccurrencePrefix(s: string, n: nat, m: string)
    requires n <= |s| && !Contains(s, m)
    ensures !Contains(s[..n], m)
  {
    forall k | 0 <= k && k + |m| <= n
      ensures !OccursAt(s[..n], m, k)
    {
      OccursPrefix(s, m, n, k);
    }
  }

  /** Appending newlines to a text without `m` cannot create an `m` when `m`
      has no newline in it. */
  lemma NoOccurrenceNewlines(a: string, m: string)
    requires |m| > 0 && !Contains(a, m) && '\n' !in m
    ensures !Contains(a + "\n\n", m)
  {
    var s := a + "\n\n";
    assert s[..|a|] == a;
    forall k | 0 <= k
      ensures !OccursAt(s, m, k)
    {
      if k + |m| <= |a| {
        OccursPrefix(s, m, |a|, k);
        assert !OccursAt(a, m, k);
      } else if k + |m| <= |s| {
        var p := if k <= |a| then |a| else k;
        assert s[p] == '\n' != m[p - k];
        assert s[k..k + |m|][p - k] != m[p - k];
      }
    }
  }

  /** A single newline holds no newline-free `m`. */
  lemma NewlineHoldsNo(m: string)
    requires |m| > 0 && '\n' !in m
    ensures !Contains("\n", m)
  {
    assert m[0] != '\n';
    forall k | 0 <= k
      ensures !OccursAt("\n", m, k)
    {
      if k + |m| <= 1 {
        assert "\n"[k..k + |m|][0] == '\n';
      }
    }
  }

  /** A character that is not the first of `m`, put in front of a text
      without `m`, creates no `m`. */
  lemma NoOccurrenceCons(ch: char, s: string, m: string)
    requires |m| > 0 && m[0] != ch && !Contains(s, m)
    ensures !Contains([ch] + s, m)
  {
    var t := [ch] + s;
    assert t[1..] == s;
    forall k | 0 <= k
      ensures !OccursAt(t, m, k)
    {
      if k == 0 {
        if |m| <= |t| {
          assert t[0..|m|][0] == ch;
        }
      } else {
        OccursShift(t, m, 1, k - 1);
      }
    }
  }

  /** No string occurs twice. */
  predicate Distinct(s: seq<string>) {
    forall i, j :: 0 <= i < j < |s| ==> s[i] != s[j]
  }

  /** `a` is `b` with some elements left out, order kept. */
  predicate Subseq(a: seq<string>, b: seq<string>)
    decreases |b|
  {
    |a| == 0 || (|b| > 0 && ((a[0] == b[0] && Subseq(a[1..], b[1..])) || Subseq(a, b[1..])))
  }

  /** `"\n".join(lines)`. */
  function JoinLines(lines: seq<string>): (r: string)
    ensures IsBlank(r) <==> forall i :: 0 <= i < |lines| ==> IsBlank(lines[i])
  {
    if |lines| == 0 then []
    else if |lines| == 1 then lines[0]
    else
      var rest := JoinLines(lines[1..]);
      BlankConcat(lines[0], "\n" + rest);
      BlankConcat("\n", rest);
      assert forall i :: 1 <= i < |lines| ==> lines[i] == lines[1..][i - 1];
      assert lines[0] + "\n" + rest == lines[0] + ("\n" + rest);
      lines[0] + "\n" + rest
  }

  /** `s.split("\n")`: the pieces between the newlines, one more piece than
      there are newlines. */
  function SplitLines(s: string): (r: seq<string>)
    ensures |r| > 0
    ensures forall i :: 0 <= i < |r| ==> '\n' !in r[i]
    decreases |s|
  {
    if |s| == 0 then [""]
    else
      var rest := SplitLines(s[1..]);
      if s[0] == '\n' then
        assert forall i :: 1 <= i < |rest| + 1 ==> ([""] + rest)[i] == rest[i - 1];
        [""] + rest
      else
        var head := [s[0]] + rest[0];
        assert forall i :: 1 <= i < |rest| ==> ([head] + rest[1..])[i] == rest[i];
        [head] + rest[1..]
  }

  /** A line with no newline is one piece. */
  lemma {:induction false} SplitOneLine(a: string)
    requires '\n' !in a
    ensures SplitLines(a) == [a]
    decreases |a|
  {
    if |a| > 0 {
      assert '\n' !in a[1..];
      SplitOneLine(a[1..]);
      assert [a[0]] + a[1..] == a;
    }
  }

  /** Splitting after a newline-free first line peels that line off. */
  lemma {:induction false} SplitFirstLine(a: string, t: string)
    requires '\n' !in a
    ensures SplitLines(a + "\n" + t) == [a] + SplitLines(t)
    decreases |a|
  {
    var s := a + "\n" + t;
    if |a| == 0 {
      assert s[0] == '\n' && s[1..] == t;
    } else {
      assert s[0] == a[0] && s[1..] == a[1..] + "\n" + t;
      assert '\n' !in a[1..];
      SplitFirstLine(a[1..], t);
      assert [a[0]] + a[1..] == a;
    }
  }

  /** Splitting the joined lines gives the lines back, when none holds a
      newline. */
  lemma {:induction false} SplitJoin(lines: seq<string>)
    requires |lines| > 0 && forall l :: l in lines ==> '\n' !in l
    ensures SplitLines(JoinLines(lines)) == lines
  {
    assert lines[0] in lines;
    if |lines| == 1 {
      SplitOneLine(lines[0]);
    } else {
      assert forall l :: l in lines[1..] ==> l in lines;
      SplitJoin(lines[1..]);
      SplitFirstLine(lines[0], JoinLines(lines[1..]));
      assert lines == [lines[0]] + lines[1..];
    }
  }

  /** Joining the pieces of a split gives the text back. */
  lemma {:induction false} JoinSplit(s: string)
    ensures JoinLines(SplitLines(s)) == s
    decreases |s|
  {
    if |s| > 0 {
      var rest := SplitLines(s[1..]);
      JoinSplit(s[1..]);
      if s[0] == '\n' {
        JoinCons("", rest);
        assert s == "\n" + s[1..];
      } else {
        var head := [s[0]] + rest[0];
        if |rest| == 1 {
          assert [head] + rest[1..] == [head];
        } else {
          JoinCons(head, rest[1..]);
          JoinCons(rest[0], rest[1..]);
          assert [rest[0]] + rest[1..] == rest;
        }
        assert s == [s[0]] + s[1..];
      }
    }
  }

  lemma JoinCons(x: string, t: seq<string>)
    requires |t| > 0
    ensures JoinLines([x] + t) == x + "\n" + JoinLines(t)
  {
    assert ([x] + t)[1..] == t;
  }

  /** Joining one more line appends a newline and that line. */
  lemma {:induction false} JoinSnoc(a: seq<string>, x: string)
    requires |a| > 0
    ensures JoinLines(a + [x]) == JoinLines(a) + "\n" + x
  {
    if |a| == 1 {
      assert a + [x] == [a[0]] + [x];
      JoinCons(a[0], [x]);
    } else {
      assert a + [x] == [a[0]] + (a[1..] + [x]);
      JoinSnoc(a[1..], x);
      JoinCons(a[0], a[1..] + [x]);
      JoinCons(a[0], a[1..]);
      assert [a[0]] + a[1..] == a;
    }
  }

  /** `rstrip` leaves a text alone when it ends in a visible character. */
  lemma RStripKeeps(s: string)
    requires |s| > 0 && !IsSpace(s[|s| - 1])
    ensures RStrip(s) == s
  {
  }

  /** Trailing whitespace makes no difference to `rstrip`. */
  lemma {:induction false} RStripBlankTail(s: string, w: string)
    requires IsBlank(w)
    ensures RStrip(s + w) == RStrip(s)
    decreases |w|
  {
    if |w| == 0 {
      assert s + w == s;
    } else {
      var v := w[..|w| - 1];
      assert (s + w)[..|s + w| - 1] == s + v;
      assert (s + w)[|s + w| - 1] == w[|w| - 1];
      RStripBlankTail(s, v);
    }
  }

  /** Adding a final newline is joining one more, empty, line; an empty list
      counts as the single empty line. */
  lemma JoinNewline(lines: seq<string>)
    ensures JoinLines((if |lines| == 0 then [""] else lines) + [""]) == JoinLines(lines) + "\n"
  {
    var body := if |lines| == 0 then [""] else lines;
    JoinSnoc(body, "");
    assert JoinLines(body) == JoinLines(lines);
  }

  /** A final empty line disappears under `rstrip`, with its newline. */
  lemma RStripEmptyLast(lines: seq<string>)
    ensures RStrip(JoinLines(lines + [""])) == RStrip(JoinLines(lines))
  {
    if |lines| > 0 {
      JoinSnoc(lines, "");
      assert JoinLines(lines) + "\n" + "" == JoinLines(lines) + "\n";
      RStripBlankTail(JoinLines(lines), "\n");
    } else {
      assert lines + [""] == [""];
    }
  }

  /** `rstrip` leaves the text alone when its last line ends in a visible
      character. */
  lemma RStripVisibleLast(lines: seq<string>, last: string)
    requires |last| > 0 && !IsSpace(last[|last| - 1])
    ensures RStrip(JoinLines(lines + [last])) == JoinLines(lines + [last])
  {
    var s := JoinLines(lines + [last]);
    if |lines| > 0 {
      JoinSnoc(lines, last);
      assert s == JoinLines(lines) + "\n" + last;
    } else {
      assert lines + [last] == [last];
    }
    assert s[|s| - 1] == last[|last| - 1];
    RStripKeeps(s);
  }

  lemma BlankConcat(a: string, b: string)
    ensures IsBlank(a + b) <==> IsBlank(a) && IsBlank(b)
  {
    if IsBlank(a) && IsBlank(b) {
      forall i | 0 <= i < |a + b|
        ensures IsSpace((a + b)[i])
      {
        if i >= |a| {
          assert (a + b)[i] == b[i - |a|];
        }
      }
    }
    if IsBlank(a + b) {
      forall i | 0 <= i < |a|
        ensures IsSpace(a[i])
      {
        assert (a + b)[i] == a[i];
      }
      forall i | 0 <= i < |b|
        ensures IsSpace(b[i])
      {
        assert (a + b)[|a| + i] == b[i];
      }
    }
  }

  /** `os.path.basename(p)` on POSIX: everything after the last '/'. */
  function Basename(p: string): (r: string)
    ensures |r| <= |p| && r == p[|p| - |r|..]
    ensures '/' !in r
    ensures |r| == |p| || p[|p| - |r| - 1] == '/'
  {
    if |p| == 0 || p[|p| - 1] == '/' then []
    else
      var q := p[..|p| - 1];
      var b := Basename(q);
      assert b + [p[|p| - 1]] == p[|p| - |b| - 1..];
      b + [p[|p| - 1]]
  }
}
